=== FILE: README.md ===
# Order and product editing in the reusable Angular CRM

This project models the order and product editing core of the CRM client,
written in Dafny:

- **`BackendService`** builds every REST request against one fixed server
  root (`http://localhost:5354/`). It attaches `Authorization: Bearer <token>`
  only when a logged-in user with a token is stored.
- **`OrderService`** turns order operations into those requests.
  - `getOrder(0)` answers at once with a blank order.
  - `saveOrder` creates (POST) an order whose id is the number 0 and updates
    (PUT) every other order.
  - Replies are unwrapped by `extractData`; failures are rethrown by
    `handleError`.
- **The order edit screen, the product edit page and the product dialog** are
  edit sessions. Each holds:
  - the loaded entity, a form of named controls, a page title and an error
    message.
  - handlers for retrieval, save, delete, save-complete and the server's
    reply.

  Each handler is a pure function from a session to the next session plus the
  effects it starts: a confirm prompt, an alert, a save, a delete, a
  navigation, or a thrown error.
- **The order route guards** are `OrderDetailGuard.canActivate`, which admits
  only ids of at least 1, and `OrderEditGuard.canDeactivate`, which asks
  before a changed form is left.

JavaScript values are a datatype (`Js.Value`). Property reads of `null` and
`undefined` throw a `TypeError`, and truthiness and `Object.assign` follow the
language. `String(v)` follows it for the values the model has, within the
limits listed under "Left out". So the model keeps the cases where the client
throws.

The model states these behaviours of the source and proves them:

- The delete and fetch request paths name the id twice: `orders/<id>/<id>`
  for a delete, and `orders/<id>/?_expand=customer/<id>` for a fetch. An
  update names it once, as `orders/<id>`.
- The blank "new order" has neither `products` nor `shipAddress`. Retrieving
  it therefore throws after the title is set, leaving the form only reset.
- The order form's range message says 9999 while its validator allows 99999.
  Its minimum length message says "one" while the rule demands 3, and so
  does the product form's. The four required address fields of the order
  form have no message at all.
- Leaving a changed order form throws, because the guard reads a `product`
  control that the order form does not have (see Findings).

Where the code and what the screens evidently intend disagree, the model
follows the code:

- Ids are duplicated in request paths.
- `update` sends an order whose id is not the number 0 without further checks.
- A completed screen is not inert: every handler still runs.
- The blank order breaks retrieval instead of producing an empty form.

Files (modules): `wrappers.dfy` (Option, Result), `js.dfy` (JavaScript values),
`backend.dfy`, `order_service.dfy`, `edit_session.dfy` (form and session
machinery shared by the screens), `validation.dfy`, `order_tables.dfy`,
`product_tables.dfy`, `order_edit.dfy`, `product_edit.dfy`, `product_dialog.dfy`,
`order_guard.dfy`, `order_flows.dfy` (whole interactions across the layers).

## Model

| member | source | states |
|---|---|---|
| Backend.Jwt | src/app/_services/backend.service.ts:53-60 | a header is produced exactly when the stored user and its token are both truthy, and it is `Bearer ` followed by the token's string form |
| Backend.JwtOfStoredUser | src/app/_services/backend.service.ts:53-60 | a stored user with a non-empty token yields exactly `Bearer <token>`; an empty token, no entry or a stored `null` yields no header |
| Backend.GetAll | src/app/_services/backend.service.ts:18-20 | a bodyless GET under the server root whose path is the action, carrying the jwt header |
| Backend.GetById | src/app/_services/backend.service.ts:22-25 | a bodyless GET whose path is `action/<id>` |
| Backend.Create | src/app/_services/backend.service.ts:27-29 | a POST of the data to path `action` |
| Backend.Update | src/app/_services/backend.service.ts:31-34 | throws exactly when the data is null or undefined; otherwise a PUT of the data to `action/<data.id>` |
| Backend.Delete | src/app/_services/backend.service.ts:36-39 | a bodyless DELETE whose path is `action/<id>` |
| Backend.Login | src/app/_services/backend.service.ts:41-45 | a GET of the action that never sends the user and never carries a header |
| Backend.Path | src/app/_services/backend.service.ts:10 | a URL has a path exactly when it starts with the server root, and root plus path gives the URL back |
| Js.Assign | src/app/order/order-edit.component.ts:233 | the copy has the keys of both sources, the form's values win, and every other own property of the order is kept |
| Js.ParseNatDigits | src/app/order/order.service.ts:47 | the decimal text of an id written into a path reads back as the same id |
| OrderService.InitializeOrder | src/app/order/order.service.ts:89-101 | the blank order has exactly the eight listed keys and values, and reading `products` or `shipAddress` from it gives undefined |
| OrderService.ExtractData | src/app/order/order.service.ts:77-80 | throws exactly for a null or undefined body or a truthy `json` member; otherwise a truthy `data` envelope is unwrapped, else the truthy body is returned, else `{}` |
| OrderService.ExtractEnvelope | src/app/order/order.service.ts:77-80 | unwrapping undoes the `{data}` envelope for every truthy payload and leaves the envelope for a falsy one |
| OrderService.HandleError | src/app/order/order.service.ts:82-87 | throws a TypeError exactly for a null or undefined error body; otherwise rethrows its truthy `error` member, else `Server error` |
| OrderService.HandleErrorBody | src/app/order/order.service.ts:82-87 | a server message is rethrown unchanged when truthy and replaced by `Server error` when empty |
| OrderService.Settle | src/app/order/order.service.ts:63-75 | an error reply becomes `handleError`'s result; a success is extracted for a create, echoes the sent order for an update, and passes through for a delete |
| OrderService.GetOrders | src/app/order/order.service.ts:19-26 | one extracted GET of the path `orders?_expand=customer`, with no body and the stored user's authorization |
| OrderService.GetOrder | src/app/order/order.service.ts:28-41 | id 0 sends nothing and answers with the blank order; any other id sends one bodyless GET carrying the stored user's authorization, whose path is `orders/<id>/?_expand=customer/<id>` |
| OrderService.DeleteOrder | src/app/order/order.service.ts:43-51 | one bodyless DELETE carrying the stored user's authorization, whose path is `orders/<id>/<id>` |
| OrderService.SaveOrder | src/app/order/order.service.ts:53-75 | throws exactly for a null or undefined order; POSTs to `orders` with the id set to undefined exactly when the id is the number 0; otherwise PUTs the order to `orders/<id>` and answers with it; every request carries the stored user's authorization |
| OrderService.SaveDispatchesOnce | src/app/order/order.service.ts:53-61 | every order that is not null or undefined is either created or updated, never both |
| OrderService.UpdateEchoesOrder | src/app/order/order.service.ts:70-75 | an update's success answers with the order that was sent, whatever the server returned |
| EditSession.FormValue | src/app/order/order-edit.component.ts:233 | the form's value has one entry per control, holding that control's value |
| EditSession.Lookup | src/app/order/order-guard.service.ts:30 | looking a control up succeeds exactly when the form has a control of that name, and yields that control's value |
| EditSession.Reset | src/app/order/order-edit.component.ts:174-176 | a reset form is pristine, keeps its controls, clears every field to null, and keeps every row with its names, each now null |
| EditSession.ResetIdempotent | src/app/order/order-edit.component.ts:248 | resetting an already reset form changes nothing |
| EditSession.Patch | src/app/order/order-edit.component.ts:187-200 | patching sets exactly the named fields, leaves rows and unnamed controls alone, and does not touch the dirty flag |
| EditSession.SetControl | src/app/order/order-edit.component.ts:211 | the named control is replaced and every other control is kept |
| EditSession.Merged | src/app/order/order-edit.component.ts:233 | the saved record holds every control's value and every other own property of the loaded entity |
| EditSession.Complete | src/app/order/order-edit.component.ts:246-250 | completion resets the form, keeps everything else and navigates to the list exactly once |
| EditSession.SaveEntity | src/app/order/order-edit.component.ts:230-244 | exactly one save, of the merged record, when dirty and valid; completion without a call when unchanged; nothing when dirty and invalid; never a delete or a prompt |
| EditSession.DeleteEntity | src/app/order/order-edit.component.ts:214-228 | a null entity throws; id 0 completes with no prompt; otherwise one prompt, then one delete of that id exactly when confirmed |
| EditSession.Settled | src/app/order/order-edit.component.ts:235-240 | a success completes and navigates; a failure only records the error |
| EditSession.SavedThenAnsweredIsComplete | src/app/order/order-edit.component.ts:230-250 | a save answered with success ends in exactly the step that saving an unchanged form produces: the reset form and one navigation to the list |
| EditSession.SaveThenReplySavesOnce | src/app/order/order-edit.component.ts:230-250 | a save of a changed form together with its reply sends exactly one save and no delete, whether the reply succeeds or fails |
| EditSession.EditedFormSaves | src/app/order/order-edit.component.ts:230-236 | after any edit of a field the next save sends the merged record, which carries the new value |
| OrderTables.ExplainedFields | src/app/order/order-edit.component.ts:82-125 | every rule outside the four address fields has a message |
| OrderTables.UnexplainedAddress | src/app/order/order-edit.component.ts:82-125 | address, city, country and zipcode are required but have no message |
| OrderTables.AddressFieldsUnexplained | src/app/order/order-edit.component.ts:82-125 | the fields whose rules lack a message are exactly the four address fields |
| OrderTables.AmountMessageDisagreesWithRule | src/app/order/order-edit.component.ts:88-114 | the amount message says 9999 while its validator allows 99999; the quantity message agrees with its validator |
| OrderTables.MinLengthMessageOmitsBound | src/app/order/order-edit.component.ts:85-110 | the reference must be at least 3 characters long, but its minimum length message reads "at least one characters" and not the bound |
| ProductTables.AllExplained | src/app/product/product-edit.component.ts:58-87 | every rule of the product form has a message |
| ProductTables.MinLengthMessageOmitsBound | src/app/product/product-edit.component.ts:61-81 | the product name must be at least 3 characters long, but its minimum length message reads "at least one characters" and not the bound |
| ProductTables.RangeMessagesDisagreeWithRules | src/app/product/product-edit.component.ts:64-85 | the price message says 9999 where 99999 is allowed and the customer message says 99999 where 9999999 is allowed; quantity agrees |
| OrderEdit.InitialForm | src/app/order/order-edit.component.ts:105-125 | the form has exactly the twelve order controls, `products` as the only row array, and starts pristine |
| OrderEdit.Initial | src/app/order/order-edit.component.ts:57 | before retrieval the screen is titled `Order Edit` and holds no order |
| OrderEdit.Title | src/app/order/order-edit.component.ts:179-184 | `Add Order` exactly for id 0, else `Edit Order: <reference> <amount>` |
| OrderEdit.ProductRow | src/app/order/order-edit.component.ts:205-208 | a row has exactly `productName` and `price`, copied from the product's `productName` and `unitPrice`; a missing member starts as null |
| OrderEdit.ProductRows | src/app/order/order-edit.component.ts:204-209 | the rows are built exactly for an array with no null or undefined element, one `{productName, price}` row per product in order; anything else throws |
| OrderEdit.RetrievedValues | src/app/order/order-edit.component.ts:187-200 | reading fails exactly when `products` or `shipAddress` is null or undefined; otherwise the eleven field values, with the address flattened and the quantity read as the products' length |
| OrderEdit.RetrievableSteps | src/app/order/order-edit.component.ts:173-212 | retrieval runs to the end exactly when the order, its id, its field values and its product rows can all be read |
| OrderEdit.RebuildRows | src/app/order/order-edit.component.ts:204-211 | when the rows can be built, the `products` control becomes exactly those rows and nothing else in the session changes; otherwise the step throws and the session is unchanged |
| OrderEdit.PatchKeepsShape | src/app/order/order-edit.component.ts:187-200 | patching an order form keeps its controls and their kinds |
| OrderEdit.FillForm | src/app/order/order-edit.component.ts:186-211 | patching and rebuilding keep the form's shape and dirty flag, and throw exactly when a value or a row cannot be read |
| OrderEdit.OnOrderRetrieved | src/app/order/order-edit.component.ts:173-212 | the form ends reset and the order kept; the handler completes exactly for a retrievable order and otherwise throws one TypeError; a null order leaves the title unchanged |
| OrderEdit.RetrievedField | src/app/order/order-edit.component.ts:187-200 | every patched field of a retrieved order holds the value read for it |
| OrderEdit.RetrievedQuantity | src/app/order/order-edit.component.ts:190 | the quantity field shows the number of products |
| OrderEdit.RetrievedIntoForm | src/app/order/order-edit.component.ts:187-199 | reference, amount, customer and active flag land in their fields |
| OrderEdit.RetrievedAddress | src/app/order/order-edit.component.ts:194-197 | the shipping address's four parts land in the four address fields |
| OrderEdit.RetrievedRows | src/app/order/order-edit.component.ts:204-211 | the product rows are one `{productName, price}` per product, in order |
| OrderEdit.StartLoad | src/app/order/order-edit.component.ts:127-131 | route id 0 loads the blank order without a request; every other id, including NaN, sends a request |
| OrderEdit.OnLoaded | src/app/order/order-edit.component.ts:158-165 | a loaded order is retrieved into the screen, while a failure only records the error |
| OrderEdit.OnSaveComplete | src/app/order/order-edit.component.ts:246-250 | completion navigates to `/orders` once; the form is reset (every value null, pristine) and the order, title and error are kept |
| OrderEdit.SaveOrder | src/app/order/order-edit.component.ts:230-244 | one save of the merged order exactly when dirty and valid; completion when unchanged; nothing when dirty and invalid |
| OrderEdit.DeleteOrder | src/app/order/order-edit.component.ts:214-228 | the unsaved order completes with no prompt; any other order gets one prompt naming its reference, followed by one delete of its own id exactly when confirmed and nothing else; a null order throws |
| OrderEdit.OnReply | src/app/order/order-edit.component.ts:235-240 | a success completes and a failure records the error |
| ProductEdit.InitialForm | src/app/product/product-edit.component.ts:79-87 | the form has exactly the five product controls, all plain fields, and starts pristine |
| ProductEdit.Initial | src/app/product/product-edit.component.ts:36 | before retrieval the page is titled `Product Edit` and holds no product |
| ProductEdit.Title | src/app/product/product-edit.component.ts:139-143 | `Add Product` exactly for id 0, else `Edit Product: <name> <unit price>` |
| ProductEdit.OnProductRetrieved | src/app/product/product-edit.component.ts:133-153 | a null product throws after the reset; otherwise name, price and stock are patched, while customer and active flag stay cleared to null |
| ProductEdit.OnLoaded | src/app/product/product-edit.component.ts:115-121 | a loaded product is retrieved into the page, while a failure only records the error |
| ProductEdit.OnSaveComplete | src/app/product/product-edit.component.ts:185-189 | completion navigates to `/products` once; the form is reset (every value null, pristine) and the product, title and error are kept |
| ProductEdit.SaveProduct | src/app/product/product-edit.component.ts:170-183 | one save of the merged product exactly when dirty and valid; completion when unchanged; nothing otherwise |
| ProductEdit.DeleteProduct | src/app/product/product-edit.component.ts:155-168 | id 0 completes with no prompt; any other product gets one prompt naming it, followed by one delete of its own id exactly when confirmed and nothing else, and the page stays |
| ProductEdit.OnReply | src/app/product/product-edit.component.ts:175-179 | a success completes and a failure records the error |
| ProductEdit.SaveAfterRetrievalCompletes | src/app/product/product-edit.component.ts:133-183 | saving right after retrieval sends nothing and only completes, because retrieval leaves the form pristine |
| ProductDialog.Initial | src/app/order/product-dialog.component.ts:26 | the dialog starts titled `Add product to order` with the product form |
| ProductDialog.OnProductRetrieved | src/app/order/product-dialog.component.ts:125-145 | the dialog retrieves a product exactly as the product page does |
| ProductDialog.OnSaveComplete | src/app/order/product-dialog.component.ts:177-181 | completion navigates to `/products`, although this is a dialog |
| ProductDialog.SaveProduct | src/app/order/product-dialog.component.ts:162-175 | one save exactly when dirty and valid, and a navigation exactly when unchanged |
| ProductDialog.DeleteProduct | src/app/order/product-dialog.component.ts:147-160 | behaves as the product page's delete: one prompt, then one delete of the product's own id exactly when it is saved and the user confirms, otherwise none |
| ProductDialog.OnReply | src/app/order/product-dialog.component.ts:167-171 | the dialog navigates exactly on a successful reply |
| OrderGuard.CanActivate | src/app/order/order-guard.service.ts:12-22 | throws exactly for a URL with fewer than two segments; otherwise admits exactly ids of at least 1, and a refusal alerts `Invalid order Id` and redirects to `/orders` |
| OrderGuard.DetailAdmitsPositiveIds | src/app/order/order-guard.service.ts:12-22 | for a URL naming the decimal id `n`, the detail route is entered exactly when `n` is at least 1, and a refusal redirects |
| OrderGuard.LeaveGuard | src/app/order/order-guard.service.ts:28-34 | an unchanged form may be left; a changed form throws when it lacks the named control, else the answer to one prompt naming that control's value decides |
| OrderGuard.CanDeactivate | src/app/order/order-guard.service.ts:28-34 | an unchanged form may be left; a changed form without a `product` control throws; otherwise the user's answer to one prompt decides |
| OrderGuard.ChangedOrderFormThrows | src/app/order/order-guard.service.ts:30 | leaving any changed order form throws instead of asking |
| OrderGuard.CanDeactivateIntended | src/app/order/order-guard.service.ts:28-34 | the same guard naming the order by its `reference` control |
| OrderGuard.IntendedGuardAsksOnce | src/app/order/order-guard.service.ts:28-34 | on every order form the corrected guard asks exactly once when changed and allows leaving exactly when unchanged or confirmed |
| OrderFlows.NewOrderRetrievalThrows | src/app/order/order-edit.component.ts:173-212 | the new-order screen sends no request, and retrieving the blank order throws with the title `Add Order` and the form exactly as reset left it |
| OrderFlows.NewOrderSaveCreates | src/app/order/order.service.ts:53-68 | saving a new order sends exactly one POST to `orders`; the record keeps id 0 and the blank order's `avatar`, `customer`, `product` (all null) and `price` (0), and the body carries the id as undefined |
| OrderFlows.ExistingOrderSaveUpdates | src/app/order/order.service.ts:70-75 | saving an existing order sends exactly one PUT of the merged record to `orders/<id>`; its success answers with that record and returns to `/orders` |
| OrderFlows.AddressEditOf | src/app/order/order-edit.component.ts:230-236 | after the address is edited, the save carries the new address and keeps the id, the nested shipping address and the quantity |
| OrderFlows.Loaded | src/app/order/order-edit.component.ts:173-212 | a retrieved order is kept, the form keeps its shape, and quantity is the number of products |
| OrderFlows.AddressEditIsSaved | src/app/order/order-edit.component.ts:187-236 | retrieve, edit the address, save: the record has the new address as a top-level key, while `shipAddress` and the id are unchanged |
| OrderFlows.DeleteRepeatsId | src/app/order/order.service.ts:43-51 | deleting a saved order asks once and deletes once, and the request path splits into `orders`, the id, and the id again |
| OrderFlows.GetOrderPathEmbedsQuery | src/app/order/order.service.ts:36-37 | fetching an order requests a path that splits into `orders`, the id, `?_expand=customer` and the id again |

## Left out

- Network, `Observable` plumbing, `localStorage` and `JSON.parse`.
  - Requests are values: the model builds them and does not send them.
  - Replies are given as parsed values.
  - The stored user is a parameter.
- Validators and `GenericValidator.processMessages` are not part of this
  model. Form validity is an input to the save handlers, and the rule and
  message tables are data.
- Debouncing, blur events and `ngOnDestroy` are left out, because they change
  no state this model tracks.
- `getCustomers` of the order screen is left out. It fills the customer list,
  which the model does not track. When it fails it overwrites the screen's
  error message, just as a failed order fetch does; that write is not
  modelled, so the model's error message can differ from the screen's.
- `console.log`, `console.error` and `prepareExternalUrl` are left out,
  because they have no observable effect here.
- `addProduct` and `deleteProduct(product)` of the order screen are left out.
  The first only opens a dialog whose result is ignored, and the second has an
  empty body.
- The product service behind the product page and the dialog is not part of
  this model. Their saves and deletes stay `Save` and `Delete` effects.
- `OrderEdit.RetrievedValues` patches `orderDate` and `shippedDate` with the
  raw values read from the order. `new Date(...)` and its conversion are not
  modelled.
- `Js.Value` numbers are integers. Fractional numbers, and the coercion of
  route text to numbers, are not modelled. `OrderGuard.CanActivate` takes the
  coercion as a parameter, and `OrderEdit.StartLoad` takes the coerced id.
- `Js.Member` does not model prototype properties or own properties named
  like array indices. None of the names the code reads is one.
- `Js.JsString` prints every object as `[object Object]`, ignoring any own
  `toString`. It prints every integer in plain digits: JavaScript switches to
  exponent form from 1e21 and loses precision above 2^53, and neither is
  modelled. `Infinity` is not a value of the model.
- `Js.Value` strings are sequences of Dafny characters, which are Unicode
  scalar values. JavaScript strings are UTF-16 code units, so lengths and
  indices differ for characters outside the Basic Multilingual Plane.
- `OrderService.SaveOrder` does not model that `createOrder` sets `id` to
  undefined on the caller's object itself. The model sends a copy without the
  id instead. The difference cannot be observed here: the screens pass a fresh
  `Object.assign` copy and drop it after the call.
- The route tables are not modelled. The guard receives the URL segments
  directly.

## Findings

| source | as written | input that shows it | evidently intended | confidence | as-written member | corrected member |
|---|---|---|---|---|---|---|
| src/app/order/order-guard.service.ts:30 | the leave guard reads `orderForm.get('product').value`, but the order form has no `product` control, so `get` returns null and reading `.value` throws | any dirty order form, e.g. after editing `reference` | name the order by a control it has (`reference`) and ask once | high, not executed | OrderGuard.ChangedOrderFormThrows | OrderGuard.IntendedGuardAsksOnce |

=== FILE: backend.dfy ===
/**
 * The generic REST accessor (`BackendService`): every request is addressed
 * relative to one fixed server root and carries a bearer header when a
 * logged-in user with a token is stored.
 */
module Backend {
  import opened Wrappers
  import opened Js

  /** The server root every request URL starts with. */
  const BaseUrl: string := "http://localhost:5354/"

  datatype Verb = GET | POST | PUT | DELETE

  /** One HTTP request: verb, absolute URL, JSON body, and the `Authorization` header if any. */
  datatype Request = Request(verb: Verb, url: string, body: Option<Value>, authorization: Option<string>)

  /**
   * The `jwt()` helper. `stored` is the parsed `currentUser` entry of local
   * storage: `None` when there is no entry (the source parses `null` then).
   */
  function Jwt(stored: Option<Value>): (auth: Option<string>)
    ensures auth.Some? <==> stored.Some? && Truthy(stored.value) && Truthy(Member(stored.value, "token"))
    ensures auth.Some? ==> auth.value == "Bearer " + JsString(Member(stored.value, "token"))
  {
    match stored
    case None => None
    case Some(user) =>
      if Truthy(user) && Truthy(Member(user, "token"))
      then Some("Bearer " + JsString(Member(user, "token")))
      else None
  }

  /** The record the login screen stores for a user holding `token`. */
  function StoredUser(token: string): Option<Value> {
    Some(Obj(map["token" := Str(token)]))
  }

  /** A stored user with a non-empty token yields exactly `Bearer <token>`; an empty token or no user yields no header. */
  lemma JwtOfStoredUser(token: string)
    ensures Jwt(StoredUser(token)) == (if token != "" then Some("Bearer " + token) else None)
    ensures Jwt(None) == None && Jwt(Some(Null)) == None
  {
  }

  /** GET `action`, e.g. a whole collection. */
  function GetAll(action: string, stored: Option<Value>): (r: Request)
    ensures r.verb == GET && r.body == None && r.authorization == Jwt(stored)
    ensures Path(r.url) == Some(action)
  {
    Request(GET, BaseUrl + action, None, Jwt(stored))
  }

  /** GET `action/id`. */
  function GetById(action: string, id: Value, stored: Option<Value>): (r: Request)
    ensures r.verb == GET && r.body == None && r.authorization == Jwt(stored)
    ensures Path(r.url) == Some(action + "/" + JsString(id))
  {
    var rest := action + "/" + JsString(id);
    PathOfRooted(rest);
    Request(GET, BaseUrl + rest, None, Jwt(stored))
  }

  /** POST `data` to `action`. */
  function Create(action: string, data: Value, stored: Option<Value>): (r: Request)
    ensures r.verb == POST && r.body == Some(data) && r.authorization == Jwt(stored)
    ensures Path(r.url) == Some(action)
  {
    Request(POST, BaseUrl + action, Some(data), Jwt(stored))
  }

  /** PUT `data` to `action/<data.id>`; reading `id` of null or undefined data throws. */
  function Update(action: string, data: Value, stored: Option<Value>): (r: Result<Request, JsError>)
    ensures r.Failure? <==> Nullish(data)
    ensures r.Failure? ==> r.error == TypeError
    ensures r.Success? ==> r.value.verb == PUT && r.value.body == Some(data) && r.value.authorization == Jwt(stored)
    ensures r.Success? ==> Path(r.value.url) == Some(action + "/" + JsString(Member(data, "id")))
  {
    match Prop(data, "id")
    case Failure(e) => Failure(e)
    case Success(id) =>
      var rest := action + "/" + JsString(id);
      PathOfRooted(rest);
      Success(Request(PUT, BaseUrl + rest, Some(data), Jwt(stored)))
  }

  /** DELETE `action/id`. */
  function Delete(action: string, id: Value, stored: Option<Value>): (r: Request)
    ensures r.verb == DELETE && r.body == None && r.authorization == Jwt(stored)
    ensures Path(r.url) == Some(action + "/" + JsString(id))
  {
    var rest := action + "/" + JsString(id);
    PathOfRooted(rest);
    Request(DELETE, BaseUrl + rest, None, Jwt(stored))
  }

  /** GET `action` for logging in: never sends the user and never attaches a header. */
  function Login(action: string, user: Value): (r: Request)
    ensures r.verb == GET && r.body == None && r.authorization == None
    ensures Path(r.url) == Some(action)
  {
    Request(GET, BaseUrl + action, None, None)
  }

  // ---------------------------------------------------------------------------
  // Reading a URL back

  /** The part of `url` after the server root, if it starts with the root. */
  function Path(url: string): (p: Option<string>)
    ensures p.Some? <==> BaseUrl <= url
    ensures p.Some? ==> url == BaseUrl + p.value
  {
    if BaseUrl <= url then Some(url[|BaseUrl|..]) else None
  }

  /** Every URL this gateway builds lies under the server root. */
  lemma PathOfRooted(rest: string)
    ensures Path(BaseUrl + rest) == Some(rest)
  {
    assert (BaseUrl + rest)[|BaseUrl|..] == rest;
  }

  /** Splits a path at every '/'. */
  function Segments(p: string): (r: seq<string>)
    ensures 1 <= |r|
    ensures forall i :: 0 <= i < |r| ==> '/' !in r[i]
    decreases |p|
  {
    if '/' !in p then [p]
    else
      var i := FirstSlash(p);
      [p[..i]] + Segments(p[i + 1..])
  }

  function FirstSlash(p: string): (i: nat)
    requires '/' in p
    ensures i < |p| && p[i] == '/' && '/' !in p[..i]
  {
    if p[0] == '/' then 0
    else
      assert '/' in p[1..] by {
        var j :| 0 <= j < |p| && p[j] == '/';
        assert p[1..][j - 1] == '/';
      }
      var i := 1 + FirstSlash(p[1..]);
      assert p[..i] == [p[0]] + p[1..][..i - 1];
      i
  }

  /** A segment without '/' followed by a slash is split off on its own. */
  lemma SegmentsCons(a: string, b: string)
    requires '/' !in a
    ensures Segments(a + "/" + b) == [a] + Segments(b)
  {
    var p := a + "/" + b;
    assert p[|a|] == '/';
    var i := FirstSlash(p);
    assert p[..i] == a;
    assert p[i + 1..] == b;
  }
}

=== FILE: edit_session.dfy ===
/**
 * The decision logic every entity edit screen shares: the form, the screen
 * state, and the save / delete / completion handlers. A handler maps the
 * current state and its inputs to a new state and the effects it starts.
 * Validity comes in as a flag, since the validators are outside this model.
 */
module EditSession {
  import opened Wrappers
  import opened Js

  /** A form control: one field, or a form array of row groups. */
  datatype Control = Field(value: Value) | Rows(rows: seq<Record>)

  /** A reactive form: its controls by name, and whether the user has changed it. */
  datatype Form = Form(controls: map<string, Control>, dirty: bool)

  /** One edit screen: the loaded entity (undefined until it arrives), its form, title and error message. */
  datatype Session = Session(entity: Value, form: Form, title: string, error: Option<JsError>)

  /** What a handler starts outside the screen. */
  datatype Effect =
    | Ask(question: string)      // a confirm prompt
    | Alert(text: string)
    | Save(record: Record)       // one service save of the record
    | Delete(id: Value)          // one service delete
    | Navigate(path: string)
    | Raise(error: JsError)      // an exception escapes the handler

  datatype Step = Step(session: Session, effects: seq<Effect>)

  function ControlValue(c: Control): Value {
    match c
    case Field(v) => v
    case Rows(rows) => Arr(seq(|rows|, i requires 0 <= i < |rows| => Obj(rows[i])))
  }

  /** The form's `value`: one entry per control. */
  function FormValue(f: Form): (r: Record)
    ensures r.Keys == f.controls.Keys
    ensures forall k :: k in f.controls ==> r[k] == ControlValue(f.controls[k])
  {
    map k | k in f.controls :: ControlValue(f.controls[k])
  }

  /** `form.get(name)`: the control's value, or nothing when the form has no such control. */
  function Lookup(f: Form, name: string): (r: Option<Value>)
    ensures r.Some? <==> name in f.controls
    ensures r.Some? ==> r.value == ControlValue(f.controls[name])
  {
    if name in f.controls then Some(ControlValue(f.controls[name])) else None
  }

  /** The value a new control starts with: an undefined initial value leaves the control null. */
  function InitialValue(v: Value): (r: Value)
    ensures !r.Undefined?
    ensures !v.Undefined? ==> r == v
    ensures v.Undefined? ==> r == Null
  {
    if v.Undefined? then Null else v
  }

  function ResetControl(c: Control): (r: Control)
    ensures r.Field? <==> c.Field?
  {
    match c
    case Field(_) => Field(Null)
    case Rows(rows) => Rows(seq(|rows|, i requires 0 <= i < |rows| => map k | k in rows[i] :: Null))
  }

  /**
   * `reset()`: every field becomes null, every row keeps its names with null
   * values, and the form is pristine again.
   */
  function Reset(f: Form): (r: Form)
    ensures !r.dirty
    ensures r.controls.Keys == f.controls.Keys
    ensures forall k :: k in f.controls && f.controls[k].Field? ==> r.controls[k] == Field(Null)
    ensures forall k :: k in f.controls && f.controls[k].Rows? ==>
      r.controls[k].Rows? && |r.controls[k].rows| == |f.controls[k].rows|
    ensures forall k, i :: k in f.controls && f.controls[k].Rows? && 0 <= i < |f.controls[k].rows| ==>
      r.controls[k].rows[i].Keys == f.controls[k].rows[i].Keys &&
      forall n :: n in r.controls[k].rows[i] ==> r.controls[k].rows[i][n] == Null
  {
    Form(map k | k in f.controls :: ResetControl(f.controls[k]), false)
  }

  /** Resetting twice is the same as resetting once. */
  lemma ResetIdempotent(f: Form)
    ensures Reset(Reset(f)) == Reset(f)
  {
    var once := Reset(f);
    forall k | k in f.controls
      ensures ResetControl(once.controls[k]) == once.controls[k]
    {
      match f.controls[k]
      case Field(_) =>
      case Rows(rows) =>
        var r := once.controls[k].rows;
        var rr := ResetControl(once.controls[k]).rows;
        assert |rr| == |r|;
        forall i | 0 <= i < |r|
          ensures rr[i] == r[i]
        {
          assert r[i] == map n | n in rows[i] :: Null;
        }
    }
    assert Reset(once).controls == once.controls;
  }

  /**
   * `patchValue(patch)`: each named field takes the patched value; controls
   * the patch does not name, and form arrays, keep theirs. Dirtiness is untouched.
   */
  function Patch(f: Form, patch: Record): (r: Form)
    ensures r.dirty == f.dirty
    ensures r.controls.Keys == f.controls.Keys
    ensures forall k :: k in f.controls && k in patch && f.controls[k].Field? ==> r.controls[k] == Field(patch[k])
    ensures forall k :: k in f.controls && (k !in patch || f.controls[k].Rows?) ==> r.controls[k] == f.controls[k]
  {
    Form(map k | k in f.controls ::
      if k in patch && f.controls[k].Field? then Field(patch[k]) else f.controls[k], f.dirty)
  }

  /** `setControl(name, c)`: replaces the control; dirtiness is untouched. */
  function SetControl(f: Form, name: string, c: Control): (r: Form)
    ensures r.dirty == f.dirty
    ensures r.controls.Keys == f.controls.Keys + {name}
    ensures r.controls[name] == c
    ensures forall k :: k in f.controls && k != name ==> r.controls[k] == f.controls[k]
  {
    Form(f.controls[name := c], f.dirty)
  }

  /** The user types `v` into the field `name`: the field takes the value and the form becomes dirty. */
  function Edit(f: Form, name: string, v: Value): (r: Form)
    ensures r.controls.Keys == f.controls.Keys
    ensures name in f.controls && f.controls[name].Field? ==> r.dirty && r.controls[name] == Field(v)
    ensures forall k :: k in f.controls && k != name ==> r.controls[k] == f.controls[k]
    ensures !(name in f.controls && f.controls[name].Field?) ==> r == f
  {
    if name in f.controls && f.controls[name].Field? then Form(f.controls[name := Field(v)], true) else f
  }

  // ---------------------------------------------------------------------------
  // Effects

  function SaveCount(effects: seq<Effect>): (n: nat)
    ensures n <= |effects|
  {
    if |effects| == 0 then 0 else (if effects[0].Save? then 1 else 0) + SaveCount(effects[1..])
  }

  function DeleteCount(effects: seq<Effect>): (n: nat)
    ensures n <= |effects|
  {
    if |effects| == 0 then 0 else (if effects[0].Delete? then 1 else 0) + DeleteCount(effects[1..])
  }

  /** Counting saves and deletes distributes over concatenating effects. */
  lemma {:induction false} CountsAppend(a: seq<Effect>, b: seq<Effect>)
    ensures SaveCount(a + b) == SaveCount(a) + SaveCount(b)
    ensures DeleteCount(a + b) == DeleteCount(a) + DeleteCount(b)
    decreases |a|
  {
    if |a| > 0 {
      assert (a + b)[1..] == a[1..] + b;
      CountsAppend(a[1..], b);
    } else {
      assert a + b == b;
    }
  }

  predicate Navigates(effects: seq<Effect>) {
    exists i :: 0 <= i < |effects| && effects[i].Navigate?
  }

  predicate Asks(effects: seq<Effect>) {
    exists i :: 0 <= i < |effects| && effects[i].Ask?
  }

  // ---------------------------------------------------------------------------
  // Handlers

  /** The record a save sends: the loaded entity with the form's values copied over it. */
  function Merged(s: Session): (r: Record)
    ensures r.Keys == OwnEntries(s.entity).Keys + s.form.controls.Keys
    ensures forall k :: k in s.form.controls ==> r[k] == ControlValue(s.form.controls[k])
    ensures forall k :: k in OwnEntries(s.entity) && k !in s.form.controls ==> r[k] == OwnEntries(s.entity)[k]
  {
    Assign(s.entity, FormValue(s.form))
  }

  /** `onSaveComplete`: reset the form and go back to the list. */
  function Complete(s: Session, listPath: string): (r: Step)
    ensures r.session == s.(form := Reset(s.form))
    ensures r.effects == [Navigate(listPath)]
  {
    Step(s.(form := Reset(s.form)), [Navigate(listPath)])
  }

  /**
   * `save`: a dirty and valid form sends exactly one save of the merged
   * record and waits for the reply; an unchanged form completes at once with
   * no call; a dirty invalid form does nothing.
   */
  function SaveEntity(s: Session, valid: bool, listPath: string): (r: Step)
    ensures SaveCount(r.effects) == (if s.form.dirty && valid then 1 else 0)
    ensures DeleteCount(r.effects) == 0 && !Asks(r.effects)
    ensures Navigates(r.effects) <==> !s.form.dirty
    ensures s.form.dirty ==> r.session == s
    ensures s.form.dirty && valid ==> r.effects == [Save(Merged(s))]
    ensures s.form.dirty && !valid ==> r.effects == []
    ensures !s.form.dirty ==> r == Complete(s, listPath)
  {
    if s.form.dirty && valid then Step(s, [Save(Merged(s))])
    else if !s.form.dirty then Complete(s, listPath)
    else Step(s, [])
  }

  /**
   * `delete`: an entity whose id is exactly 0 was never saved, so the screen
   * completes without asking and without a call. Any other id asks once and
   * sends exactly one delete of that id when the answer is yes; a no changes
   * nothing. Reading the id before an entity has loaded throws.
   */
  function DeleteEntity(s: Session, confirmed: bool, question: string, listPath: string): (r: Step)
    ensures Nullish(s.entity) ==> r == Step(s, [Raise(TypeError)])
    ensures !Nullish(s.entity) && Member(s.entity, "id") == Num(0) ==> r == Complete(s, listPath)
    ensures !Nullish(s.entity) && Member(s.entity, "id") != Num(0) ==>
      && r.session == s
      && r.effects == (if confirmed then [Ask(question), Delete(Member(s.entity, "id"))] else [Ask(question)])
    ensures SaveCount(r.effects) == 0
    ensures DeleteCount(r.effects) == (if !Nullish(s.entity) && Member(s.entity, "id") != Num(0) && confirmed then 1 else 0)
  {
    match Prop(s.entity, "id")
    case Failure(e) => Step(s, [Raise(e)])
    case Success(id) =>
      if id == Num(0) then Complete(s, listPath)
      else if confirmed then Step(s, [Ask(question), Delete(id)])
      else Step(s, [Ask(question)])
  }

  /**
   * The reply to a save or a delete: success completes the screen; an error
   * is kept as the screen's error message and nothing else happens.
   */
  function Settled(s: Session, outcome: Result<Value, JsError>, listPath: string): (r: Step)
    ensures outcome.Success? ==> r == Complete(s, listPath)
    ensures outcome.Failure? ==> r.session == s.(error := Some(outcome.error)) && r.effects == []
    ensures Navigates(r.effects) <==> outcome.Success?
  {
    match outcome
    case Success(_) =>
      var r := Complete(s, listPath);
      assert r.effects[0].Navigate?;
      r
    case Failure(e) => Step(s.(error := Some(e)), [])
  }

  /** A save that is answered with success ends exactly where saving an unchanged form ends. */
  lemma SavedThenAnsweredIsComplete(s: Session, listPath: string, answer: Value)
    requires s.form.dirty
    ensures Settled(SaveEntity(s, true, listPath).session, Success(answer), listPath)
      == SaveEntity(s.(form := s.form.(dirty := false)), true, listPath)
  {
    assert Reset(s.form.(dirty := false)) == Reset(s.form);
  }

  /**
   * A save and the reply it gets, taken together, send exactly one save and
   * no delete, whatever the reply.
   */
  lemma SaveThenReplySavesOnce(s: Session, outcome: Result<Value, JsError>, listPath: string)
    requires s.form.dirty
    ensures var sent := SaveEntity(s, true, listPath);
      var all := sent.effects + Settled(sent.session, outcome, listPath).effects;
      SaveCount(all) == 1 && DeleteCount(all) == 0
  {
    var sent := SaveEntity(s, true, listPath);
    var reply := Settled(sent.session, outcome, listPath);
    CountsAppend(sent.effects, reply.effects);
    assert SaveCount(reply.effects) == 0 && DeleteCount(reply.effects) == 0 by {
      if outcome.Success? {
        assert reply.effects == [Navigate(listPath)];
      }
    }
  }

  /** After any edit the form is dirty, so the next save is not a silent completion. */
  lemma EditedFormSaves(s: Session, name: string, v: Value, listPath: string)
    requires name in s.form.controls && s.form.controls[name].Field?
    ensures var t := s.(form := Edit(s.form, name, v));
      SaveEntity(t, true, listPath).effects == [Save(Merged(t))] && Merged(t)[name] == v
  {
  }
}

=== FILE: js.dfy ===
/**
 * JavaScript values as this client sees them: parsed JSON bodies, plus
 * `undefined` (a missing property) and `NaN` (a failed numeric coercion).
 * Numbers are integers; fractional numbers are not modelled.
 */
module Js {
  import opened Wrappers

  datatype Value =
    | Undefined
    | Null
    | NaN
    | Bool(b: bool)
    | Num(n: int)
    | Str(s: string)
    | Arr(items: seq<Value>)
    | Obj(fields: map<string, Value>)

  /** The own properties of a plain object. */
  type Record = map<string, Value>

  /** What a failing expression throws: a `TypeError`, or a value passed to `throw`. */
  datatype JsError = TypeError | Thrown(payload: Value)

  predicate Nullish(v: Value) {
    v.Undefined? || v.Null?
  }

  /** JavaScript truthiness. */
  predicate Truthy(v: Value) {
    match v
    case Undefined => false
    case Null => false
    case NaN => false
    case Bool(b) => b
    case Num(n) => n != 0
    case Str(s) => s != ""
    case Arr(_) => true
    case Obj(_) => true
  }

  /** `v || fallback` */
  function Or(v: Value, fallback: Value): (r: Value)
    ensures Truthy(v) ==> r == v
    ensures !Truthy(v) ==> r == fallback
  {
    if Truthy(v) then v else fallback
  }

  /**
   * `v[key]` on a value that is not null or undefined. Objects expose their own
   * fields, arrays and strings their `length`; every other read yields
   * `undefined`. None of the names this model reads is an array index or a
   * prototype member.
   */
  function Member(v: Value, key: string): Value
  {
    match v
    case Obj(m) => if key in m then m[key] else Undefined
    case Arr(items) => if key == "length" then Num(|items|) else Undefined
    case Str(s) => if key == "length" then Num(|s|) else Undefined
    case _ => Undefined
  }

  /** `v.key`: reading any property of null or undefined throws a TypeError. */
  function Prop(v: Value, key: string): (r: Result<Value, JsError>)
    ensures r.Failure? <==> Nullish(v)
    ensures r.Failure? ==> r.error == TypeError
    ensures r.Success? ==> r.value == Member(v, key)
  {
    if Nullish(v) then Failure(TypeError) else Success(Member(v, key))
  }

  // ---------------------------------------------------------------------------
  // Decimal notation

  predicate IsDigit(c: char) {
    '0' <= c <= '9'
  }

  function DigitChar(d: nat): (c: char)
    requires d < 10
    ensures IsDigit(c) && c as int - '0' as int == d
  {
    "0123456789"[d]
  }

  /** The decimal notation of a natural number, without leading zeros. */
  function NatDigits(n: nat): (s: string)
    ensures 1 <= |s|
    ensures forall i :: 0 <= i < |s| ==> IsDigit(s[i])
    ensures n >= 10 ==> s[0] != '0'
    decreases n
  {
    if n < 10 then [DigitChar(n)] else NatDigits(n / 10) + [DigitChar(n % 10)]
  }

  /** Reads a non-empty string of decimal digits back as a number. */
  function ParseNat(s: string): (r: Option<nat>)
    ensures r.Some? <==> 1 <= |s| && forall i :: 0 <= i < |s| ==> IsDigit(s[i])
    decreases |s|
  {
    if |s| == 0 || !IsDigit(s[|s| - 1]) then None
    else
      var d := s[|s| - 1] as int - '0' as int;
      if |s| == 1 then Some(d)
      else match ParseNat(s[..|s| - 1])
        case None => None
        case Some(p) => Some(p * 10 + d)
  }

  /** Decimal notation round-trips: reading `NatDigits(n)` gives back `n`. */
  lemma {:induction false} ParseNatDigits(n: nat)
    ensures ParseNat(NatDigits(n)) == Some(n)
    decreases n
  {
    if n >= 10 {
      var s := NatDigits(n);
      ParseNatDigits(n / 10);
      assert s[..|s| - 1] == NatDigits(n / 10);
    }
  }

  /** Distinct numbers have distinct decimal notations. */
  lemma NatDigitsInjective(i: nat, j: nat)
    requires NatDigits(i) == NatDigits(j)
    ensures i == j
  {
    ParseNatDigits(i);
    ParseNatDigits(j);
  }

  // ---------------------------------------------------------------------------
  // String conversion, as done by template literals and `+` on strings

  function Join(parts: seq<string>, sep: string): (r: string)
    ensures |parts| == 1 ==> r == parts[0]
  {
    if |parts| == 0 then ""
    else if |parts| == 1 then parts[0]
    else Join(parts[..|parts| - 1], sep) + sep + parts[|parts| - 1]
  }

  /**
   * `String(v)`. An array joins its elements with commas, writing null and
   * undefined elements as empty; an object prints as `[object Object]`.
   */
  function JsString(v: Value): string
    decreases v
  {
    match v
    case Undefined => "undefined"
    case Null => "null"
    case NaN => "NaN"
    case Bool(b) => if b then "true" else "false"
    case Num(n) => if n < 0 then "-" + NatDigits(-n) else NatDigits(n)
    case Str(s) => s
    case Arr(items) =>
      Join(seq(|items|, i requires 0 <= i < |items| =>
        if Nullish(items[i]) then "" else JsString(items[i])), ",")
    case Obj(_) => "[object Object]"
  }

  /** A non-negative number prints as its plain digits, with no sign and no '/'. */
  lemma NumStringIsDigits(n: nat)
    ensures JsString(Num(n)) == NatDigits(n)
    ensures forall i :: 0 <= i < |JsString(Num(n))| ==> IsDigit(JsString(Num(n))[i])
  {
  }

  // ---------------------------------------------------------------------------
  // Object.assign

  /** The entries `"0" .. "n-1"` of an array-like source, keyed by decimal index. */
  function Indexed(items: seq<Value>): (m: Record)
    ensures forall i :: 0 <= i < |items| ==> NatDigits(i) in m && m[NatDigits(i)] == items[i]
    decreases |items|
  {
    if |items| == 0 then map[]
    else
      var last := |items| - 1;
      var prefix := Indexed(items[..last]);
      IndexedExtend(prefix, items);
      prefix[NatDigits(last) := items[last]]
  }

  /** Adding the last element under its own index keeps every earlier index intact. */
  lemma IndexedExtend(prefix: Record, items: seq<Value>)
    requires |items| > 0
    requires forall i :: 0 <= i < |items| - 1 ==> NatDigits(i) in prefix && prefix[NatDigits(i)] == items[..|items| - 1][i]
    ensures var m := prefix[NatDigits(|items| - 1) := items[|items| - 1]];
      forall i :: 0 <= i < |items| ==> NatDigits(i) in m && m[NatDigits(i)] == items[i]
  {
    var last := |items| - 1;
    var m := prefix[NatDigits(last) := items[last]];
    forall i | 0 <= i < |items|
      ensures NatDigits(i) in m && m[NatDigits(i)] == items[i]
    {
      if i < last {
        if NatDigits(i) == NatDigits(last) {
          NatDigitsInjective(i, last);
        }
        assert prefix[NatDigits(i)] == items[..last][i];
      }
    }
  }

  /**
   * The own enumerable properties `Object.assign` copies from a source:
   * an object's fields, the indexed elements of an array or the characters
   * of a string; null, undefined, booleans and numbers contribute nothing.
   */
  function OwnEntries(v: Value): (m: Record)
    ensures v.Obj? ==> m == v.fields
    ensures !v.Obj? && !v.Arr? && !v.Str? ==> m == map[]
  {
    match v
    case Obj(fields) => fields
    case Arr(items) => Indexed(items)
    case Str(s) => Indexed(seq(|s|, i requires 0 <= i < |s| => Str([s[i]])))
    case _ => map[]
  }

  /** `Object.assign({}, base, over)`: the properties of `over` win on shared names. */
  function Assign(base: Value, over: Record): (r: Record)
    ensures r.Keys == OwnEntries(base).Keys + over.Keys
    ensures forall k :: k in over ==> r[k] == over[k]
    ensures forall k :: k in OwnEntries(base) && k !in over ==> r[k] == OwnEntries(base)[k]
  {
    OwnEntries(base) + over
  }
}

=== FILE: order_edit.dfy ===
/**
 * The order edit screen (`OrderEditComponent`): its form, its validation
 * tables, and the handlers for loading, saving and deleting an order.
 */
module OrderEdit {
  import opened Wrappers
  import opened Js
  import opened EditSession
  import OrderService
  import Backend

  /** Where the screen goes once it is done. */
  const ListPath: string := "/orders"

  // ---------------------------------------------------------------------------
  // The form and its tables

  /** The controls of the order form. */
  const ControlNames: set<string> := {
    "reference", "amount", "quantity", "orderDate", "shippedDate", "address",
    "city", "country", "zipcode", "customerId", "products", "isActive"}

  /** The form as the screen builds it: empty text fields, no product rows, not active. */
  function InitialForm(): (f: Form)
    ensures Shaped(f) && !f.dirty
  {
    Form(map[
      "reference" := Field(Str("")),
      "amount" := Field(Str("")),
      "quantity" := Field(Str("")),
      "orderDate" := Field(Str("")),
      "shippedDate" := Field(Str("")),
      "address" := Field(Str("")),
      "city" := Field(Str("")),
      "country" := Field(Str("")),
      "zipcode" := Field(Str("")),
      "customerId" := Field(Str("")),
      "products" := Rows([]),
      "isActive" := Field(Bool(false))], false)
  }

  /** The screen before its order arrives. */
  function Initial(): (s: Session)
    ensures s.entity == Undefined && Shaped(s.form) && s.title == "Order Edit" && s.error == None
  {
    Session(Undefined, InitialForm(), "Order Edit", None)
  }

  /** The form keeps exactly the order controls, with `products` the only form array. */
  predicate Shaped(f: Form) {
    && f.controls.Keys == ControlNames
    && (forall k :: k in f.controls && k != "products" ==> f.controls[k].Field?)
    && f.controls["products"].Rows?
  }

  // ---------------------------------------------------------------------------
  // Retrieval

  /** `Edit Order: <reference> <amount>`, or `Add Order` for the blank order. */
  function Title(order: Value): (t: string)
    ensures Member(order, "id") == Num(0) <==> t == "Add Order"
    ensures Member(order, "id") != Num(0) ==>
      t == "Edit Order: " + JsString(Member(order, "reference")) + " " + JsString(Member(order, "amount"))
  {
    if Member(order, "id") == Num(0) then "Add Order"
    else "Edit Order: " + JsString(Member(order, "reference")) + " " + JsString(Member(order, "amount"))
  }

  /**
   * One product row of the form array: the product's name and its unit
   * price, each a new control, so a missing member starts out null.
   */
  function ProductRow(product: Value): (r: Record)
    ensures r.Keys == {"productName", "price"}
    ensures forall k :: k in r ==> !r[k].Undefined?
    ensures !Member(product, "productName").Undefined? ==> r["productName"] == Member(product, "productName")
    ensures !Member(product, "unitPrice").Undefined? ==> r["price"] == Member(product, "unitPrice")
    ensures Member(product, "productName").Undefined? ==> r["productName"] == Null
    ensures Member(product, "unitPrice").Undefined? ==> r["price"] == Null
  {
    map["productName" := InitialValue(Member(product, "productName")),
        "price" := InitialValue(Member(product, "unitPrice"))]
  }

  /** The rows built by mapping over `products`; a non-array or a null or undefined element throws. */
  function ProductRows(products: Value): (r: Result<seq<Record>, JsError>)
    ensures r.Failure? ==> r.error == TypeError
    ensures r.Success? <==> products.Arr? && forall i :: 0 <= i < |products.items| ==> !Nullish(products.items[i])
    ensures r.Success? ==> |r.value| == |products.items|
    ensures r.Success? ==> forall i :: 0 <= i < |r.value| ==> r.value[i] == ProductRow(products.items[i])
  {
    if !products.Arr? then Failure(TypeError)
    else if exists i :: 0 <= i < |products.items| && Nullish(products.items[i]) then Failure(TypeError)
    else Success(seq(|products.items|, i requires 0 <= i < |products.items| => ProductRow(products.items[i])))
  }

  /** The values patched into the form; reading through a missing `products` or `shipAddress` throws. */
  function RetrievedValues(order: Value): (r: Result<Record, JsError>)
    ensures r.Failure? <==> Nullish(Member(order, "products")) || Nullish(Member(order, "shipAddress"))
    ensures r.Failure? ==> r.error == TypeError
    ensures r.Success? ==> r.value.Keys == {
      "reference", "amount", "quantity", "orderDate", "shippedDate", "address",
      "city", "country", "zipcode", "customerId", "isActive"}
    ensures r.Success? ==>
      && r.value["reference"] == Member(order, "reference")
      && r.value["amount"] == Member(order, "amount")
      && r.value["quantity"] == Member(Member(order, "products"), "length")
      && r.value["customerId"] == Member(order, "customerId")
      && r.value["isActive"] == Member(order, "isActive")
    ensures r.Success? ==>
      var ship := Member(order, "shipAddress");
      && r.value["address"] == Member(ship, "address")
      && r.value["city"] == Member(ship, "city")
      && r.value["country"] == Member(ship, "country")
      && r.value["zipcode"] == Member(ship, "zipcode")
  {
    var products := Member(order, "products");
    var ship := Member(order, "shipAddress");
    if Nullish(products) || Nullish(ship) then Failure(TypeError)
    else Success(map[
      "reference" := Member(order, "reference"),
      "amount" := Member(order, "amount"),
      "quantity" := Member(products, "length"),
      "orderDate" := Member(order, "orderDate"),
      "shippedDate" := Member(order, "shippedDate"),
      "address" := Member(ship, "address"),
      "city" := Member(ship, "city"),
      "country" := Member(ship, "country"),
      "zipcode" := Member(ship, "zipcode"),
      "customerId" := Member(order, "customerId"),
      "isActive" := Member(order, "isActive")])
  }

  /** Retrieval runs to the end exactly for orders with a shipping address and an array of present products. */
  predicate Retrievable(order: Value) {
    && !Nullish(order)
    && !Nullish(Member(order, "shipAddress"))
    && Member(order, "products").Arr?
    && forall i :: 0 <= i < |Member(order, "products").items| ==> !Nullish(Member(order, "products").items[i])
  }

  /** Retrievability is exactly: the id, the patched values and the product rows can all be read. */
  lemma RetrievableSteps(order: Value)
    ensures Retrievable(order) <==>
      !Nullish(order) && RetrievedValues(order).Success? && ProductRows(Member(order, "products")).Success?
  {
  }

  /** The last retrieval step: replace the product rows. */
  function RebuildRows(t: Session, products: Value): (r: Step)
    ensures r.session == t.(form := r.session.form)
    ensures r.session.form.dirty == t.form.dirty
    ensures Shaped(t.form) ==> Shaped(r.session.form)
    ensures ProductRows(products).Success? <==> r.effects == []
    ensures ProductRows(products).Failure? <==> r.effects == [Raise(TypeError)]
    ensures ProductRows(products).Failure? ==> r.session == t
    ensures ProductRows(products).Success? ==>
      r.session.form.controls == t.form.controls["products" := Rows(ProductRows(products).value)]
  {
    match ProductRows(products)
    case Failure(e) => Step(t, [Raise(e)])
    case Success(rows) => Step(t.(form := SetControl(t.form, "products", Rows(rows))), [])
  }

  /** Patching values never changes which controls exist or their kind. */
  lemma PatchKeepsShape(f: Form, values: Record)
    ensures Shaped(f) ==> Shaped(Patch(f, values))
  {
    var g := Patch(f, values);
    forall k | k in g.controls
      ensures g.controls[k].Field? == f.controls[k].Field?
    {
    }
  }

  /** The retrieval steps after the title: patch the fields, then rebuild the rows. */
  function FillForm(t: Session, order: Value): (r: Step)
    ensures r.session == t.(form := r.session.form)
    ensures r.session.form.dirty == t.form.dirty
    ensures Shaped(t.form) ==> Shaped(r.session.form)
    ensures RetrievedValues(order).Success? && ProductRows(Member(order, "products")).Success? <==> r.effects == []
    ensures !(RetrievedValues(order).Success? && ProductRows(Member(order, "products")).Success?) <==>
      r.effects == [Raise(TypeError)]
  {
    match RetrievedValues(order)
    case Failure(e) => Step(t, [Raise(e)])
    case Success(values) =>
      PatchKeepsShape(t.form, values);
      RebuildRows(t.(form := Patch(t.form, values)), Member(order, "products"))
  }

  /**
   * `onOrderRetrieved`: reset the form, keep the order, set the title, patch
   * the fields and rebuild the product rows. A failing read throws part-way,
   * leaving the steps before it done.
   */
  function OnOrderRetrieved(s: Session, order: Value): (r: Step)
    ensures r.session.entity == order && r.session.error == s.error && !r.session.form.dirty
    ensures Shaped(s.form) ==> Shaped(r.session.form)
    ensures Retrievable(order) <==> r.effects == []
    ensures !Retrievable(order) <==> r.effects == [Raise(TypeError)]
    ensures Nullish(order) ==> r.session.title == s.title && r.session.form == Reset(s.form)
    ensures !Nullish(order) ==> r.session.title == Title(order)
  {
    RetrievableSteps(order);
    var cleared := s.(form := Reset(s.form), entity := order);
    match Prop(order, "id")
    case Failure(e) => Step(cleared, [Raise(e)])
    case Success(_) => FillForm(cleared.(title := Title(order)), order)
  }

  /** The form a retrievable order leaves behind: reset, patched, with rebuilt rows. */
  function RetrievedForm(s: Session, order: Value): Form
    requires Retrievable(order)
  {
    RetrievableSteps(order);
    var values := RetrievedValues(order).value;
    SetControl(Patch(Reset(s.form), values), "products", Rows(ProductRows(Member(order, "products")).value))
  }

  lemma RetrievedFormIs(s: Session, order: Value)
    requires Retrievable(order)
    ensures OnOrderRetrieved(s, order).session.form == RetrievedForm(s, order)
  {
    RetrievableSteps(order);
  }

  /** Every field control holds the value retrieval patched in for it. */
  lemma RetrievedField(s: Session, order: Value, k: string)
    requires Retrievable(order) && k != "products"
    requires k in s.form.controls && s.form.controls[k].Field?
    requires RetrievedValues(order).Success? && k in RetrievedValues(order).value
    ensures RetrievedForm(s, order).controls[k] == Field(RetrievedValues(order).value[k])
  {
  }

  /** The quantity shown for a retrievable order is its number of products. */
  lemma RetrievedQuantity(s: Session, order: Value)
    requires Shaped(s.form) && Retrievable(order)
    ensures OnOrderRetrieved(s, order).session.form.controls["quantity"] == Field(Num(|Member(order, "products").items|))
  {
    RetrievableSteps(order);
    RetrievedFormIs(s, order);
    assert "quantity" in ControlNames;
    RetrievedField(s, order, "quantity");
  }

  /** A retrievable order's own fields land in the form. */
  lemma RetrievedIntoForm(s: Session, order: Value)
    requires Shaped(s.form) && Retrievable(order)
    ensures var f := OnOrderRetrieved(s, order).session.form;
      && f.controls["reference"] == Field(Member(order, "reference"))
      && f.controls["amount"] == Field(Member(order, "amount"))
      && f.controls["customerId"] == Field(Member(order, "customerId"))
      && f.controls["isActive"] == Field(Member(order, "isActive"))
  {
    RetrievableSteps(order);
    RetrievedFormIs(s, order);
    assert "reference" in ControlNames && "amount" in ControlNames;
    assert "customerId" in ControlNames && "isActive" in ControlNames;
    RetrievedField(s, order, "reference");
    RetrievedField(s, order, "amount");
    RetrievedField(s, order, "customerId");
    RetrievedField(s, order, "isActive");
  }

  /** The shipping address of a retrievable order is flattened into the address fields. */
  lemma RetrievedAddress(s: Session, order: Value)
    requires Shaped(s.form) && Retrievable(order)
    ensures var f := OnOrderRetrieved(s, order).session.form;
      var ship := Member(order, "shipAddress");
      && f.controls["address"] == Field(Member(ship, "address"))
      && f.controls["city"] == Field(Member(ship, "city"))
      && f.controls["country"] == Field(Member(ship, "country"))
      && f.controls["zipcode"] == Field(Member(ship, "zipcode"))
  {
    RetrievableSteps(order);
    RetrievedFormIs(s, order);
    assert "address" in ControlNames && "city" in ControlNames;
    assert "country" in ControlNames && "zipcode" in ControlNames;
    RetrievedField(s, order, "address");
    RetrievedField(s, order, "city");
    RetrievedField(s, order, "country");
    RetrievedField(s, order, "zipcode");
  }

  /** A retrievable order leaves one `{productName, price}` row per product, in order. */
  lemma RetrievedRows(s: Session, order: Value)
    requires Retrievable(order)
    ensures var f := OnOrderRetrieved(s, order).session.form;
      var products := Member(order, "products").items;
      f.controls["products"] == Rows(seq(|products|, i requires 0 <= i < |products| => ProductRow(products[i])))
  {
    RetrievedFormIs(s, order);
    RetrievableSteps(order);
    var rows := ProductRows(Member(order, "products")).value;
    assert rows == seq(|rows|, i requires 0 <= i < |rows| => ProductRow(Member(order, "products").items[i]));
  }

  /** `getOrder`'s request for the id read from the route, where `None` is the NaN of a failed coercion. */
  function StartLoad(id: Option<int>, stored: Option<Value>): (c: OrderService.Call)
    ensures id == Some(0) <==> c == OrderService.Immediate(OrderService.InitializeOrder())
    ensures id != Some(0) ==> c.Send?
  {
    OrderService.GetOrder(match id case Some(n) => Num(n) case None => NaN, stored)
  }

  /** The answer to `getOrder`: an order is retrieved, an error becomes the error message. */
  function OnLoaded(s: Session, outcome: Result<Value, JsError>): (r: Step)
    ensures outcome.Success? ==> r == OnOrderRetrieved(s, outcome.value)
    ensures outcome.Failure? ==> r.session == s.(error := Some(outcome.error)) && r.effects == []
  {
    match outcome
    case Success(order) => OnOrderRetrieved(s, order)
    case Failure(e) => Step(s.(error := Some(e)), [])
  }

  // ---------------------------------------------------------------------------
  // Save, delete, completion

  /** `onSaveComplete`: reset the form and go to the order list. */
  function OnSaveComplete(s: Session): (r: Step)
    ensures r.effects == [Navigate(ListPath)]
    ensures r.session == s.(form := Reset(s.form))
    ensures !r.session.form.dirty && r.session.entity == s.entity && r.session.error == s.error
    ensures Shaped(s.form) ==> Shaped(r.session.form)
  {
    Complete(s, ListPath)
  }

  /**
   * `saveOrder`: one service save of the order merged with the form when the
   * form is dirty and valid; completion with no call when it is unchanged;
   * nothing at all when it is dirty and invalid.
   */
  function SaveOrder(s: Session, valid: bool): (r: Step)
    ensures SaveCount(r.effects) == (if s.form.dirty && valid then 1 else 0)
    ensures DeleteCount(r.effects) == 0
    ensures s.form.dirty && valid ==> r.session == s && r.effects == [Save(Merged(s))]
    ensures s.form.dirty && !valid ==> r == Step(s, [])
    ensures !s.form.dirty ==> r == OnSaveComplete(s)
    ensures Shaped(s.form) ==> Shaped(r.session.form)
  {
    SaveEntity(s, valid, ListPath)
  }

  /** The confirm prompt names the order's reference. */
  function DeleteQuestion(s: Session): string {
    "Really delete the order: " + JsString(Member(s.entity, "reference")) + "?"
  }

  /**
   * `deleteOrder`: the never-saved order (id 0) completes with no prompt and
   * no call; any other order is deleted exactly when the user confirms.
   */
  function DeleteOrder(s: Session, confirmed: bool): (r: Step)
    ensures !Nullish(s.entity) && Member(s.entity, "id") == Num(0) ==> r == OnSaveComplete(s)
    ensures !Nullish(s.entity) && Member(s.entity, "id") != Num(0) ==>
      r.session == s && r.effects != [] && r.effects[0] == Ask(DeleteQuestion(s)) &&
      (DeleteCount(r.effects) == 1 <==> confirmed) && !Navigates(r.effects)
    ensures !Nullish(s.entity) && Member(s.entity, "id") != Num(0) ==>
      r.effects == (if confirmed then [Ask(DeleteQuestion(s)), Delete(Member(s.entity, "id"))]
                    else [Ask(DeleteQuestion(s))])
    ensures Nullish(s.entity) ==> r == Step(s, [Raise(TypeError)])
    ensures SaveCount(r.effects) == 0
    ensures Shaped(s.form) ==> Shaped(r.session.form)
  {
    var r := DeleteEntity(s, confirmed, DeleteQuestion(s), ListPath);
    assert !Nullish(s.entity) && Member(s.entity, "id") != Num(0) ==> !Navigates(r.effects) by {
      if !Nullish(s.entity) && Member(s.entity, "id") != Num(0) {
        assert forall i :: 0 <= i < |r.effects| ==> !r.effects[i].Navigate?;
      }
    }
    r
  }

  /** The reply to a save or delete: navigate to the list on success, keep the error otherwise. */
  function OnReply(s: Session, outcome: Result<Value, JsError>): (r: Step)
    ensures outcome.Success? ==> r == OnSaveComplete(s)
    ensures outcome.Failure? ==> r == Step(s.(error := Some(outcome.error)), [])
    ensures Shaped(s.form) ==> Shaped(r.session.form)
  {
    Settled(s, outcome, ListPath)
  }
}

=== FILE: order_flows.dfy ===
/**
 * Whole interactions on the order screen, from the handler's effect through
 * `OrderService` to the request the backend sends.
 */
module OrderFlows {
  import opened Wrappers
  import opened Js
  import opened EditSession
  import OrderEdit
  import OrderService
  import Backend

  // ---------------------------------------------------------------------------
  // Helpers

  /** The order keys that have no form control and so survive a save untouched. */
  lemma NotControls()
    ensures "id" !in OrderEdit.ControlNames && "avatar" !in OrderEdit.ControlNames
    ensures "customer" !in OrderEdit.ControlNames && "shipAddress" !in OrderEdit.ControlNames
    ensures "product" !in OrderEdit.ControlNames && "price" !in OrderEdit.ControlNames
  {
  }

  lemma KeptOutsideForm(s: Session, k: string)
    requires s.entity.Obj? && OrderEdit.Shaped(s.form) && k !in OrderEdit.ControlNames
    ensures k in s.entity.fields ==> Merged(s)[k] == s.entity.fields[k]
  {
  }

  /** Decimal digits never contain the path separator. */
  lemma DigitsHaveNoSlash(n: nat)
    ensures '/' !in NatDigits(n)
  {
  }

  lemma JoinThree(a: string, b: string, c: string)
    ensures a + "/" + b + "/" + c == a + "/" + (b + "/" + c)
  {
  }

  /** A path of three slash-free parts splits back into exactly those parts. */
  lemma ThreeSegments(a: string, b: string, c: string)
    requires '/' !in a && '/' !in b && '/' !in c
    ensures Backend.Segments(a + "/" + b + "/" + c) == [a, b, c]
  {
    JoinThree(a, b, c);
    Backend.SegmentsCons(b, c);
    Backend.SegmentsCons(a, b + "/" + c);
  }

  lemma JoinFour(a: string, b: string, c: string, d: string)
    ensures a + "/" + b + "/" + c + "/" + d == a + "/" + (b + "/" + c + "/" + d)
  {
  }

  /** A path of four slash-free parts splits back into exactly those parts. */
  lemma FourSegments(a: string, b: string, c: string, d: string)
    requires '/' !in a && '/' !in b && '/' !in c && '/' !in d
    ensures Backend.Segments(a + "/" + b + "/" + c + "/" + d) == [a, b, c, d]
  {
    var bcd := b + "/" + c + "/" + d;
    ThreeSegments(b, c, d);
    Backend.SegmentsCons(a, bcd);
    JoinFour(a, b, c, d);
  }

  // ---------------------------------------------------------------------------
  // New orders

  /**
   * Opening the screen for a new order: no request is made, but the blank
   * order has no `products` and no `shipAddress`, so retrieval throws after
   * the title is set and leaves the form merely reset.
   */
  lemma NewOrderRetrievalThrows(s: Session, stored: Option<Value>)
    ensures OrderEdit.StartLoad(Some(0), stored) == OrderService.Immediate(OrderService.InitializeOrder())
    ensures var r := OrderEdit.OnOrderRetrieved(s, OrderService.InitializeOrder());
      && r.effects == [Raise(TypeError)]
      && r.session.title == "Add Order"
      && r.session.entity == OrderService.InitializeOrder()
      && !r.session.form.dirty
      && r.session.form == Reset(s.form)
  {
    var blank := OrderService.InitializeOrder();
    assert !OrderEdit.Retrievable(blank) by {
      OrderEdit.RetrievableSteps(blank);
    }
  }

  /**
   * Saving a new order: the screen issues exactly one save, the service turns
   * it into exactly one POST to `orders`, the record keeps the blank order's
   * id 0 and other fields under the form's values, and the posted body has
   * its id set to undefined.
   */
  lemma NewOrderSaveCreates(s: Session, stored: Option<Value>)
    requires s.entity == OrderService.InitializeOrder()
    requires OrderEdit.Shaped(s.form) && s.form.dirty
    ensures var step := OrderEdit.SaveOrder(s, true);
      var rec := Merged(s);
      var c := OrderService.SaveOrder(Obj(rec), stored);
      && step.effects == [Save(rec)]
      && rec["id"] == Num(0) && rec["avatar"] == Null && rec["customer"] == Null
      && rec["product"] == Null && rec["price"] == Num(0)
      && c.Send? && c.request.verb == Backend.POST
      && Backend.Path(c.request.url) == Some("orders")
      && c.request.body == Some(Obj(rec["id" := Undefined]))
      && c.handling == OrderService.Extract
  {
    NotControls();
    KeptOutsideForm(s, "id");
    KeptOutsideForm(s, "avatar");
    KeptOutsideForm(s, "customer");
    KeptOutsideForm(s, "product");
    KeptOutsideForm(s, "price");
    var rec := Merged(s);
    assert Member(Obj(rec), "id") == Num(0);
  }

  // ---------------------------------------------------------------------------
  // Existing orders

  /**
   * Saving an existing order: exactly one PUT to `orders/<id>` carrying the
   * merged record with its id; a successful reply answers with that record
   * and the screen goes back to the order list.
   */
  lemma ExistingOrderSaveUpdates(s: Session, stored: Option<Value>, n: int, body: Value)
    requires s.entity.Obj? && Member(s.entity, "id") == Num(n) && n != 0
    requires OrderEdit.Shaped(s.form) && s.form.dirty
    ensures var step := OrderEdit.SaveOrder(s, true);
      var rec := Merged(s);
      var c := OrderService.SaveOrder(Obj(rec), stored);
      && step.effects == [Save(rec)]
      && rec["id"] == Num(n)
      && c.Send? && c.request.verb == Backend.PUT
      && Backend.Path(c.request.url) == Some("orders/" + JsString(Num(n)))
      && c.request.body == Some(Obj(rec))
      && OrderService.Settle(c.handling, OrderService.Ok(body)) == Success(Obj(rec))
      && OrderEdit.OnReply(step.session, Success(Obj(rec))).effects == [Navigate("/orders")]
  {
    NotControls();
    KeptOutsideForm(s, "id");
    var rec := Merged(s);
    assert Member(Obj(rec), "id") == Num(n);
    var c := OrderService.SaveOrder(Obj(rec), stored);
    assert OrderService.Resource + "/" == "orders/";
    assert Backend.Path(c.request.url) == Some(OrderService.Resource + "/" + JsString(Num(n)));
  }

  /**
   * Editing the address of a loaded order and saving: the record carries the
   * new address, and keeps the id, the nested shipping address and the
   * quantity the screen loaded.
   */
  lemma AddressEditOf(t: Session, address: Value, q: Value)
    requires t.entity.Obj? && OrderEdit.Shaped(t.form)
    requires t.form.controls["quantity"] == Field(q)
    ensures var edited := t.(form := Edit(t.form, "address", address));
      var rec := Merged(edited);
      && OrderEdit.SaveOrder(edited, true).effects == [Save(rec)]
      && rec["address"] == address
      && rec["quantity"] == q
      && Member(Obj(rec), "id") == Member(t.entity, "id")
      && Member(Obj(rec), "shipAddress") == Member(t.entity, "shipAddress")
  {
    NotControls();
    assert "address" in OrderEdit.ControlNames && "quantity" in OrderEdit.ControlNames;
    var edited := t.(form := Edit(t.form, "address", address));
    assert edited.form.dirty;
    assert edited.form.controls["quantity"] == Field(q);
  }

  /** What the edit scenario needs to know about a freshly retrieved order. */
  lemma Loaded(s: Session, order: Value)
    requires OrderEdit.Shaped(s.form) && OrderEdit.Retrievable(order)
    ensures var t := OrderEdit.OnOrderRetrieved(s, order).session;
      && order.Obj? && t.entity == order && OrderEdit.Shaped(t.form)
      && t.form.controls["quantity"] == Field(Num(|Member(order, "products").items|))
  {
    OrderEdit.RetrievedQuantity(s, order);
    OrderEdit.RetrievableSteps(order);
  }

  /**
   * The edit scenario: an order is retrieved and the user changes only the
   * address. The save carries the new address as a top-level key, keeps the
   * order's id and its nested `shipAddress` as they were (the edit does not
   * reach them), and sends the product count as the quantity.
   */
  lemma AddressEditIsSaved(s: Session, order: Value, address: Value)
    requires OrderEdit.Shaped(s.form) && OrderEdit.Retrievable(order)
    ensures var loaded := OrderEdit.OnOrderRetrieved(s, order).session;
      var edited := loaded.(form := Edit(loaded.form, "address", address));
      var rec := Merged(edited);
      && OrderEdit.SaveOrder(edited, true).effects == [Save(rec)]
      && rec["address"] == address
      && Member(Obj(rec), "id") == Member(order, "id")
      && Member(Obj(rec), "shipAddress") == Member(order, "shipAddress")
      && rec["quantity"] == Num(|Member(order, "products").items|)
  {
    Loaded(s, order);
    var loaded := OrderEdit.OnOrderRetrieved(s, order).session;
    AddressEditOf(loaded, address, Num(|Member(order, "products").items|));
  }

  /**
   * Deleting an existing order: one prompt, one delete of its id, and the
   * request path names the id twice, `orders/<id>/<id>`; both id segments
   * read back as the id.
   */
  lemma DeleteRepeatsId(s: Session, stored: Option<Value>, n: nat)
    requires !Nullish(s.entity) && Member(s.entity, "id") == Num(n) && n != 0
    ensures OrderEdit.DeleteOrder(s, true).effects == [Ask(OrderEdit.DeleteQuestion(s)), Delete(Num(n))]
    ensures var c := OrderService.DeleteOrder(Num(n), stored);
      && c.Send? && c.request.verb == Backend.DELETE
      && Backend.Path(c.request.url).Some?
      && Backend.Segments(Backend.Path(c.request.url).value) == ["orders", NatDigits(n), NatDigits(n)]
      && ParseNat(NatDigits(n)) == Some(n)
  {
    NumStringIsDigits(n);
    DigitsHaveNoSlash(n);
    ThreeSegments(OrderService.Resource, NatDigits(n), NatDigits(n));
    ParseNatDigits(n);
  }

  /**
   * Fetching an existing order: the query string lands in the middle of the
   * path, `orders/<id>/?_expand=customer/<id>`.
   */
  lemma GetOrderPathEmbedsQuery(stored: Option<Value>, n: nat)
    requires n != 0
    ensures var c := OrderService.GetOrder(Num(n), stored);
      && c.Send? && c.request.verb == Backend.GET
      && Backend.Path(c.request.url).Some?
      && Backend.Segments(Backend.Path(c.request.url).value) ==
           ["orders", NatDigits(n), OrderService.ExpandCustomer, NatDigits(n)]
  {
    var d := NatDigits(n);
    NumStringIsDigits(n);
    DigitsHaveNoSlash(n);
    assert '/' !in OrderService.ExpandCustomer;
    FourSegments(OrderService.Resource, d, OrderService.ExpandCustomer, d);
  }
}

=== FILE: order_guard.dfy ===
/**
 * The order route guards: `OrderDetailGuard` admits only positive numeric
 * order ids, and `OrderEditGuard` asks before leaving a changed form.
 */
module OrderGuard {
  import opened Wrappers
  import opened Js
  import opened EditSession
  import OrderEdit

  /** A guard either answers, with the effects it started, or throws. */
  datatype Verdict = Verdict(allow: bool, effects: seq<Effect>) | Threw(error: JsError)

  /** An order id the detail route accepts: a number of at least 1. */
  predicate AcceptedId(id: Option<int>) {
    id.Some? && id.value >= 1
  }

  /**
   * `canActivate`: the second URL segment, coerced to a number by `coerce`
   * (`None` standing for NaN), must be at least 1; otherwise the guard
   * alerts, redirects to the order list and refuses. A URL with fewer than
   * two segments throws when its second segment is read.
   */
  function CanActivate(url: seq<string>, coerce: string -> Option<int>): (r: Verdict)
    ensures |url| < 2 <==> r == Threw(TypeError)
    ensures |url| >= 2 ==> r.Verdict? && (r.allow <==> AcceptedId(coerce(url[1])))
    ensures r.Verdict? && r.allow ==> r.effects == []
    ensures r.Verdict? && !r.allow ==> r.effects == [Alert("Invalid order Id"), Navigate(OrderEdit.ListPath)]
  {
    if |url| < 2 then Threw(TypeError)
    else
      match coerce(url[1])
      case None => Verdict(false, [Alert("Invalid order Id"), Navigate(OrderEdit.ListPath)])
      case Some(id) =>
        if id < 1 then Verdict(false, [Alert("Invalid order Id"), Navigate(OrderEdit.ListPath)])
        else Verdict(true, [])
  }

  /** The prompt names the control's value, or `New Order` when it is empty. */
  function LeaveQuestion(name: Value): string {
    "Navigate away and lose all changes to " + JsString(Or(name, Str("New Order"))) + "?"
  }

  /**
   * The leave guard, naming the form by the value of control `name`: an
   * unchanged form may always be left; for a changed form the guard reads
   * that control's value, which throws when the form has no such control,
   * and otherwise returns the user's answer to one prompt.
   */
  function LeaveGuard(f: Form, confirmed: bool, name: string): (r: Verdict)
    ensures !f.dirty ==> r == Verdict(true, [])
    ensures f.dirty && name !in f.controls ==> r == Threw(TypeError)
    ensures f.dirty && name in f.controls ==>
      r == Verdict(confirmed, [Ask(LeaveQuestion(ControlValue(f.controls[name])))])
  {
    if !f.dirty then Verdict(true, [])
    else
      match Lookup(f, name)
      case None => Threw(TypeError)
      case Some(value) => Verdict(confirmed, [Ask(LeaveQuestion(value))])
  }

  /** `canDeactivate` as written: the order is named by a control called `product`. */
  function CanDeactivate(f: Form, confirmed: bool): (r: Verdict)
    ensures !f.dirty ==> r == Verdict(true, [])
    ensures f.dirty && "product" !in f.controls ==> r == Threw(TypeError)
    ensures f.dirty && "product" in f.controls ==>
      r == Verdict(confirmed, [Ask(LeaveQuestion(ControlValue(f.controls["product"])))])
  {
    LeaveGuard(f, confirmed, "product")
  }

  /**
   * The order form never has a `product` control, so leaving a changed order
   * form throws instead of asking the user.
   */
  lemma ChangedOrderFormThrows(f: Form, confirmed: bool)
    requires OrderEdit.Shaped(f) && f.dirty
    ensures CanDeactivate(f, confirmed) == Threw(TypeError)
  {
    assert "product" !in OrderEdit.ControlNames;
  }

  /**
   * The guard as evidently intended: the same prompt, naming the order by
   * its `reference` control, which the order form does have.
   */
  function CanDeactivateIntended(f: Form, confirmed: bool): (r: Verdict)
    ensures !f.dirty ==> r == Verdict(true, [])
    ensures f.dirty && "reference" !in f.controls ==> r == Threw(TypeError)
    ensures f.dirty && "reference" in f.controls ==>
      r == Verdict(confirmed, [Ask(LeaveQuestion(ControlValue(f.controls["reference"])))])
  {
    LeaveGuard(f, confirmed, "reference")
  }

  /** On every order form the intended guard asks exactly once when changed and returns exactly the answer. */
  lemma IntendedGuardAsksOnce(f: Form, confirmed: bool)
    requires OrderEdit.Shaped(f)
    ensures var r := CanDeactivateIntended(f, confirmed);
      && r.Verdict?
      && (r.allow <==> !f.dirty || confirmed)
      && (Asks(r.effects) <==> f.dirty)
      && |r.effects| <= 1
  {
    var r := CanDeactivateIntended(f, confirmed);
    if f.dirty {
      assert r.effects[0].Ask?;
    }
  }

  /**
   * The detail route admits exactly the positive ids: for a URL whose second
   * segment is the decimal text of `n`, under any coercion that reads
   * decimal text back as its number.
   */
  lemma DetailAdmitsPositiveIds(n: nat, coerce: string -> Option<int>)
    requires coerce(NatDigits(n)) == Some(n)
    ensures var r := CanActivate(["orders", NatDigits(n)], coerce);
      r.Verdict? && (r.allow <==> n >= 1) && (r.allow || Navigates(r.effects))
  {
    var r := CanActivate(["orders", NatDigits(n)], coerce);
    if !r.allow {
      assert r.effects[1] == Navigate(OrderEdit.ListPath);
    }
  }
}

=== FILE: order_service.dfy ===
/**
 * `OrderService`: turns order operations into backend requests and shapes
 * the replies. Its actions already end in the order id, and the backend
 * appends `/<id>` a second time.
 */
module OrderService {
  import opened Wrappers
  import opened Js
  import Backend

  /** The resource name every order request is addressed under. */
  const Resource: string := "orders"

  /** The query that asks the server to embed each order's customer. */
  const ExpandCustomer: string := "?_expand=customer"

  /** The order shown on the "new order" screen. */
  function InitializeOrder(): (o: Value)
    ensures o.Obj?
    ensures o.fields.Keys == {"id", "avatar", "product", "price", "customerId", "quantity", "isActive", "customer"}
    ensures Member(o, "id") == Num(0) && Member(o, "price") == Num(0)
    ensures Member(o, "customerId") == Num(0) && Member(o, "quantity") == Num(0)
    ensures Member(o, "isActive") == Bool(false)
    ensures Member(o, "avatar") == Null && Member(o, "product") == Null && Member(o, "customer") == Null
    ensures Member(o, "products") == Undefined && Member(o, "shipAddress") == Undefined
  {
    Obj(map[
      "id" := Num(0),
      "avatar" := Null,
      "product" := Null,
      "price" := Num(0),
      "customerId" := Num(0),
      "quantity" := Num(0),
      "isActive" := Bool(false),
      "customer" := Null])
  }

  /** How the reply to a request becomes the operation's result. */
  datatype Handling =
    | Extract        // `.map(extractData)`
    | Echo(sent: Value)  // `.map(() => order)`
    | Passthrough    // no mapping beyond the backend's JSON parse

  /** An operation either answers at once, sends one request, or throws before sending. */
  datatype Call =
    | Immediate(value: Value)
    | Send(request: Backend.Request, handling: Handling)
    | Raise(error: JsError)

  /** A parsed reply: a success body, or the body of an error response. */
  datatype Reply = Ok(body: Value) | Err(body: Value)

  /**
   * `extractData`, applied to the body the backend has already parsed. Reading
   * `json` of a null or undefined body throws; a truthy `json` field is called
   * and, not being a function, throws too. Otherwise the `data` envelope is
   * unwrapped when truthy, else the body itself, else `{}`.
   */
  function ExtractData(body: Value): (r: Result<Value, JsError>)
    ensures Nullish(body) || Truthy(Member(body, "json")) <==> r == Failure(TypeError)
    ensures r.Success? && Truthy(Member(body, "data")) ==> r.value == Member(body, "data")
    ensures r.Success? && !Truthy(Member(body, "data")) && Truthy(body) ==> r.value == body
    ensures r.Success? && !Truthy(body) ==> r.value == Obj(map[])
  {
    if Nullish(body) || Truthy(Member(body, "json")) then Failure(TypeError)
    else if Truthy(Member(body, "data")) then Success(Member(body, "data"))
    else Success(Or(body, Obj(map[])))
  }

  /** The `{data: …}` envelope a server may wrap a payload in. */
  function Envelope(payload: Value): Value {
    Obj(map["data" := payload])
  }

  /** Unwrapping undoes the envelope for every truthy payload; a falsy payload leaves the envelope itself. */
  lemma ExtractEnvelope(payload: Value)
    ensures Truthy(payload) ==> ExtractData(Envelope(payload)) == Success(payload)
    ensures !Truthy(payload) ==> ExtractData(Envelope(payload)) == Success(Envelope(payload))
  {
  }

  /**
   * `handleError`: what the failed operation throws, given the parsed body of
   * the error response. Reading `error` of a null or undefined body throws.
   */
  function HandleError(body: Value): (e: JsError)
    ensures Nullish(body) <==> e == TypeError
    ensures !Nullish(body) && Truthy(Member(body, "error")) ==> e == Thrown(Member(body, "error"))
    ensures !Nullish(body) && !Truthy(Member(body, "error")) ==> e == Thrown(Str("Server error"))
  {
    match Prop(body, "error")
    case Failure(e) => e
    case Success(err) => Thrown(Or(err, Str("Server error")))
  }

  /** The shape of an error body carrying a message. */
  function ErrorBody(message: Value): Value {
    Obj(map["error" := message])
  }

  /** A truthy server message is rethrown as is; an empty one becomes the generic text. */
  lemma HandleErrorBody(message: Value)
    ensures Truthy(message) ==> HandleError(ErrorBody(message)) == Thrown(message)
    ensures !Truthy(message) ==> HandleError(ErrorBody(message)) == Thrown(Str("Server error"))
  {
  }

  /**
   * The outcome a subscriber sees once a reply arrives. An exception thrown
   * while mapping a success reaches `handleError`, which throws a TypeError
   * in turn because an exception has no `json` method.
   */
  function Settle(h: Handling, reply: Reply): (r: Result<Value, JsError>)
    ensures reply.Err? ==> r == Failure(HandleError(reply.body))
    ensures reply.Ok? && h.Echo? ==> r == Success(h.sent)
    ensures reply.Ok? && h.Passthrough? ==> r == Success(reply.body)
    ensures reply.Ok? && h.Extract? ==> r == ExtractData(reply.body)
  {
    match reply
    case Err(body) => Failure(HandleError(body))
    case Ok(body) =>
      match h
      case Echo(sent) => Success(sent)
      case Passthrough => Success(body)
      case Extract => ExtractData(body)
  }

  /** `getOrders`: the list, with each order's customer expanded. */
  function GetOrders(stored: Option<Value>): (c: Call)
    ensures c.Send? && c.handling == Extract
    ensures c.request.verb == Backend.GET && c.request.body == None
    ensures c.request.authorization == Backend.Jwt(stored)
    ensures Backend.Path(c.request.url) == Some("orders?_expand=customer")
  {
    assert Resource + ExpandCustomer == "orders?_expand=customer";
    Send(Backend.GetAll(Resource + ExpandCustomer, stored), Extract)
  }

  /** `getOrder`: id 0 answers with a blank order and sends nothing. */
  function GetOrder(id: Value, stored: Option<Value>): (c: Call)
    ensures id == Num(0) <==> c.Immediate?
    ensures c.Immediate? ==> c.value == InitializeOrder()
    ensures !c.Immediate? ==> c.Send? && c.handling == Extract && c.request.verb == Backend.GET
    ensures !c.Immediate? ==> c.request.body == None && c.request.authorization == Backend.Jwt(stored)
    ensures !c.Immediate? ==>
      Backend.Path(c.request.url) == Some(Resource + "/" + JsString(id) + "/" + ExpandCustomer + "/" + JsString(id))
  {
    if id == Num(0) then Immediate(InitializeOrder())
    else Send(Backend.GetById(Resource + "/" + JsString(id) + "/" + ExpandCustomer, id, stored), Extract)
  }

  /** `deleteOrder`: the action already names the id and the backend appends it again. */
  function DeleteOrder(id: Value, stored: Option<Value>): (c: Call)
    ensures c.Send? && c.handling == Passthrough
    ensures c.request.verb == Backend.DELETE && c.request.body == None
    ensures c.request.authorization == Backend.Jwt(stored)
    ensures Backend.Path(c.request.url) == Some(Resource + "/" + JsString(id) + "/" + JsString(id))
  {
    Send(Backend.Delete(Resource + "/" + JsString(id), id, stored), Passthrough)
  }

  /**
   * `saveOrder`: an order whose id is exactly the number 0 is created, after
   * its `id` is set to undefined; every other order is updated and the
   * operation answers with the order it was given. Reading the id of null or
   * undefined throws before anything is sent.
   */
  function SaveOrder(order: Value, stored: Option<Value>): (c: Call)
    ensures Nullish(order) <==> c == Raise(TypeError)
    ensures c.Send? <==> !Nullish(order)
    ensures c.Send? ==> (c.request.verb == Backend.POST <==> Member(order, "id") == Num(0))
    ensures c.Send? ==> (c.request.verb == Backend.PUT <==> Member(order, "id") != Num(0))
    ensures c.Send? ==> c.request.authorization == Backend.Jwt(stored)
    ensures c.Send? && c.request.verb == Backend.POST ==>
      && c.handling == Extract
      && Backend.Path(c.request.url) == Some(Resource)
      && c.request.body == Some(Obj(order.fields["id" := Undefined]))
    ensures c.Send? && c.request.verb == Backend.PUT ==>
      && c.handling == Echo(order)
      && c.request.body == Some(order)
      && Backend.Path(c.request.url) == Some(Resource + "/" + JsString(Member(order, "id")))
  {
    match Prop(order, "id")
    case Failure(e) => Raise(e)
    case Success(id) =>
      if id == Num(0) then
        // only an object can hold the number 0 under `id`
        var stripped := Obj(order.fields["id" := Undefined]);
        Send(Backend.Create(Resource, stripped, stored), Extract)
      else
        match Backend.Update(Resource, order, stored)
        case Failure(e) => Raise(e)
        case Success(request) => Send(request, Echo(order))
  }

  /** Exactly one of create and update runs for every order that is not null or undefined. */
  lemma SaveDispatchesOnce(order: Value, stored: Option<Value>)
    requires !Nullish(order)
    ensures var c := SaveOrder(order, stored);
      c.Send? && (c.request.verb == Backend.POST) != (c.request.verb == Backend.PUT)
  {
  }

  /** An update answers with the order it sent, whatever the success body says. */
  lemma UpdateEchoesOrder(order: Value, stored: Option<Value>, body: Value)
    requires !Nullish(order) && Member(order, "id") != Num(0)
    ensures var c := SaveOrder(order, stored);
      c.Send? && Settle(c.handling, Ok(body)) == Success(order)
  {
  }
}

=== FILE: order_tables.dfy ===
/**
 * The validation tables of the order form, as the order edit screen
 * declares them: the rules on each control and the messages per error code.
 */
module OrderTables {
  import opened Js
  import opened Validation

  const Rules: RuleTable := map[
    "reference" := [Required, MinLength(3), MaxLength(100)],
    "amount" := [Range(1, 99999)],
    "quantity" := [Range(1, 20)],
    "orderDate" := [],
    "shippedDate" := [],
    "address" := [Required],
    "city" := [Required],
    "country" := [Required],
    "zipcode" := [Required],
    "customerId" := [Required],
    "isActive" := []]

  const Messages: MessageTable := map[
    "reference" := map[
      "required" := Text("Order reference is required."),
      "minlength" := Text("Order reference must be at least one characters."),
      "maxlength" := Text("Order reference cannot exceed 100 characters.")],
    "amount" := map[
      "range" := Bounds("Amount of the order", 1, 9999)],
    "quantity" := map[
      "range" := Bounds("Quantity of the order", 1, 20)],
    "customerId" := map[
      "required" := Text("Customer is required.")]]

  lemma ExplainedFields()
    ensures forall f :: f in Rules && f !in {"address", "city", "country", "zipcode"} ==>
      forall i :: 0 <= i < |Rules[f]| ==> HasMessage(Messages, f, Rules[f][i])
  {
  }

  lemma UnexplainedAddress()
    ensures forall f :: f in {"address", "city", "country", "zipcode"} ==>
      f in Rules && Rules[f] == [Required] && !HasMessage(Messages, f, Required)
  {
  }

  /** The four address fields are required, yet the table has no message for them; every other rule has one. */
  lemma AddressFieldsUnexplained()
    ensures Unexplained(Rules, Messages) == {"address", "city", "country", "zipcode"}
  {
    ExplainedFields();
    UnexplainedAddress();
    var u := Unexplained(Rules, Messages);
    forall f | f in {"address", "city", "country", "zipcode"} ensures f in u {
      assert !HasMessage(Messages, f, Rules[f][0]);
    }
  }

  /**
   * The reference must be at least three characters long, yet its minimum
   * length message says "at least one characters" rather than naming the
   * bound the rule checks.
   */
  lemma MinLengthMessageOmitsBound()
    ensures MinLength(3) in Rules["reference"]
    ensures Messages["reference"]["minlength"] == Text("Order reference must be at least one characters.")
    ensures Messages["reference"]["minlength"].text != "Order reference must be at least " + NatDigits(3) + " characters."
  {
    assert NatDigits(3) == "3";
  }

  /** The amount message states 9999 as the maximum while the validator allows up to 99999; quantity's agrees. */
  lemma AmountMessageDisagreesWithRule()
    ensures Rules["amount"] == [Range(1, 99999)] && Messages["amount"]["range"].hi == 9999
    ensures !RangeMessageAgrees(Rules, Messages, "amount")
    ensures RangeMessageAgrees(Rules, Messages, "quantity")
  {
    assert Rules["amount"][0].hi != Messages["amount"]["range"].hi;
  }
}

=== FILE: product_dialog.dfy ===
/**
 * The product dialog (`ProductDialogComponent`): the same form and the same
 * handlers as the product edit page. Only its initial title differs; even
 * its completion navigates to the product list.
 */
module ProductDialog {
  import opened Wrappers
  import opened Js
  import opened EditSession
  import ProductEdit

  /** The dialog before its product arrives. */
  function Initial(): (s: Session)
    ensures s.entity == Undefined && ProductEdit.Shaped(s.form) && !s.form.dirty
    ensures s.title == "Add product to order" && s.error == None
  {
    Session(Undefined, ProductEdit.InitialForm(), "Add product to order", None)
  }

  /** Retrieval maps name, unit price and stock into the form and titles the dialog by id. */
  function OnProductRetrieved(s: Session, product: Value): (r: Step)
    ensures r == ProductEdit.OnProductRetrieved(s, product)
    ensures !Nullish(product) ==> r.effects == []
    ensures !Nullish(product) ==> (r.session.title == "Add Product" <==> Member(product, "id") == Num(0))
  {
    ProductEdit.OnProductRetrieved(s, product)
  }

  /** Completion resets the form and navigates to the product list, although this is a dialog. */
  function OnSaveComplete(s: Session): (r: Step)
    ensures r.effects == [Navigate("/products")]
    ensures r == ProductEdit.OnSaveComplete(s)
  {
    ProductEdit.OnSaveComplete(s)
  }

  /** Saving: one save when dirty and valid, completion with no call when unchanged, nothing otherwise. */
  function SaveProduct(s: Session, valid: bool): (r: Step)
    ensures r == ProductEdit.SaveProduct(s, valid)
    ensures SaveCount(r.effects) == (if s.form.dirty && valid then 1 else 0)
    ensures Navigates(r.effects) <==> !s.form.dirty
  {
    var r := ProductEdit.SaveProduct(s, valid);
    assert !s.form.dirty ==> r.effects[0].Navigate?;
    assert s.form.dirty ==> forall i :: 0 <= i < |r.effects| ==> !r.effects[i].Navigate?;
    r
  }

  /** Deleting: no call for id 0; otherwise one delete exactly when confirmed. */
  function DeleteProduct(s: Session, confirmed: bool): (r: Step)
    ensures r == ProductEdit.DeleteProduct(s, confirmed)
    ensures DeleteCount(r.effects) == 1 <==> !Nullish(s.entity) && Member(s.entity, "id") != Num(0) && confirmed
    ensures DeleteCount(r.effects) <= 1 && SaveCount(r.effects) == 0
  {
    ProductEdit.DeleteProduct(s, confirmed)
  }

  /** The reply to a save or delete. */
  function OnReply(s: Session, outcome: Result<Value, JsError>): (r: Step)
    ensures r == ProductEdit.OnReply(s, outcome)
    ensures Navigates(r.effects) <==> outcome.Success?
  {
    Settled(s, outcome, ProductEdit.ListPath)
  }
}

=== FILE: product_edit.dfy ===
/**
 * The product edit page (`ProductEditComponent`): its form and the handlers
 * for loading, saving and deleting a product. The product service behind
 * it is not part of this model, so saves and deletes stay effects.
 */
module ProductEdit {
  import opened Wrappers
  import opened Js
  import opened EditSession

  /** Where the screen goes once it is done. */
  const ListPath: string := "/products"

  /** The controls of the product form. */
  const ControlNames: set<string> := {"product", "price", "quantity", "customerId", "isActive"}

  /** The form as the screen builds it: empty text fields, not active. */
  function InitialForm(): (f: Form)
    ensures Shaped(f) && !f.dirty
  {
    Form(map[
      "product" := Field(Str("")),
      "price" := Field(Str("")),
      "quantity" := Field(Str("")),
      "customerId" := Field(Str("")),
      "isActive" := Field(Bool(false))], false)
  }

  /** The page before its product arrives. */
  function Initial(): (s: Session)
    ensures s.entity == Undefined && Shaped(s.form) && s.title == "Product Edit" && s.error == None
  {
    Session(Undefined, InitialForm(), "Product Edit", None)
  }

  /** The form keeps exactly the product controls, all of them plain fields. */
  predicate Shaped(f: Form) {
    && f.controls.Keys == ControlNames
    && forall k :: k in f.controls ==> f.controls[k].Field?
  }

  /** `Edit Product: <name> <unit price>`, or `Add Product` for id 0. */
  function Title(product: Value): (t: string)
    ensures Member(product, "id") == Num(0) <==> t == "Add Product"
    ensures Member(product, "id") != Num(0) ==>
      t == "Edit Product: " + JsString(Member(product, "productName")) + " " + JsString(Member(product, "unitPrice"))
  {
    if Member(product, "id") == Num(0) then "Add Product"
    else
      var t := "Edit Product: " + JsString(Member(product, "productName")) + " " + JsString(Member(product, "unitPrice"));
      assert t[..5] == "Edit ";
      t
  }

  /** The values patched into the form; customer and active flag are not among them. */
  function RetrievedValues(product: Value): Record {
    map[
      "product" := Member(product, "productName"),
      "price" := Member(product, "unitPrice"),
      "quantity" := Member(product, "unitInStock")]
  }

  /**
   * `onProductRetrieved`: reset the form, keep the product, set the title and
   * patch name, price and stock into the form. Reading the id of null or
   * undefined throws after the reset.
   */
  function OnProductRetrieved(s: Session, product: Value): (r: Step)
    ensures r.session.entity == product && r.session.error == s.error && !r.session.form.dirty
    ensures Shaped(s.form) ==> Shaped(r.session.form)
    ensures Nullish(product) <==> r.effects == [Raise(TypeError)]
    ensures !Nullish(product) <==> r.effects == []
    ensures Nullish(product) ==> r.session.title == s.title && r.session.form == Reset(s.form)
    ensures !Nullish(product) ==> r.session.title == Title(product)
    ensures !Nullish(product) && Shaped(s.form) ==>
      && r.session.form.controls["product"] == Field(Member(product, "productName"))
      && r.session.form.controls["price"] == Field(Member(product, "unitPrice"))
      && r.session.form.controls["quantity"] == Field(Member(product, "unitInStock"))
      && r.session.form.controls["customerId"] == Field(Null)
      && r.session.form.controls["isActive"] == Field(Null)
  {
    var cleared := s.(form := Reset(s.form), entity := product);
    match Prop(product, "id")
    case Failure(e) => Step(cleared, [Raise(e)])
    case Success(_) =>
      Step(cleared.(title := Title(product), form := Patch(cleared.form, RetrievedValues(product))), [])
  }

  /** The answer to `getProduct`: a product is retrieved, an error becomes the error message. */
  function OnLoaded(s: Session, outcome: Result<Value, JsError>): (r: Step)
    ensures outcome.Success? ==> r == OnProductRetrieved(s, outcome.value)
    ensures outcome.Failure? ==> r.session == s.(error := Some(outcome.error)) && r.effects == []
  {
    match outcome
    case Success(product) => OnProductRetrieved(s, product)
    case Failure(e) => Step(s.(error := Some(e)), [])
  }

  /** `onSaveComplete`: reset the form and go to the product list. */
  function OnSaveComplete(s: Session): (r: Step)
    ensures r.effects == [Navigate(ListPath)]
    ensures r.session == s.(form := Reset(s.form))
    ensures !r.session.form.dirty && r.session.entity == s.entity && r.session.error == s.error
    ensures Shaped(s.form) ==> Shaped(r.session.form)
  {
    Complete(s, ListPath)
  }

  /**
   * `saveProduct`: one save of the product merged with the form when the
   * form is dirty and valid; completion with no call when it is unchanged;
   * nothing at all when it is dirty and invalid.
   */
  function SaveProduct(s: Session, valid: bool): (r: Step)
    ensures SaveCount(r.effects) == (if s.form.dirty && valid then 1 else 0)
    ensures DeleteCount(r.effects) == 0
    ensures s.form.dirty && valid ==> r.session == s && r.effects == [Save(Merged(s))]
    ensures s.form.dirty && !valid ==> r == Step(s, [])
    ensures !s.form.dirty ==> r == OnSaveComplete(s)
    ensures Shaped(s.form) ==> Shaped(r.session.form)
  {
    SaveEntity(s, valid, ListPath)
  }

  /** The confirm prompt names the product. */
  function DeleteQuestion(s: Session): string {
    "Really delete the product: " + JsString(Member(s.entity, "productName")) + "?"
  }

  /**
   * `deleteProduct`: the never-saved product (id 0) completes with no prompt
   * and no call; any other product is deleted exactly when the user confirms.
   */
  function DeleteProduct(s: Session, confirmed: bool): (r: Step)
    ensures !Nullish(s.entity) && Member(s.entity, "id") == Num(0) ==> r == OnSaveComplete(s)
    ensures !Nullish(s.entity) && Member(s.entity, "id") != Num(0) ==>
      r.session == s && r.effects != [] && r.effects[0] == Ask(DeleteQuestion(s)) &&
      (DeleteCount(r.effects) == 1 <==> confirmed) && !Navigates(r.effects)
    ensures !Nullish(s.entity) && Member(s.entity, "id") != Num(0) ==>
      r.effects == (if confirmed then [Ask(DeleteQuestion(s)), Delete(Member(s.entity, "id"))]
                    else [Ask(DeleteQuestion(s))])
    ensures Nullish(s.entity) ==> r == Step(s, [Raise(TypeError)])
    ensures SaveCount(r.effects) == 0
    ensures Shaped(s.form) ==> Shaped(r.session.form)
  {
    var r := DeleteEntity(s, confirmed, DeleteQuestion(s), ListPath);
    assert !Nullish(s.entity) && Member(s.entity, "id") != Num(0) ==> !Navigates(r.effects) by {
      if !Nullish(s.entity) && Member(s.entity, "id") != Num(0) {
        assert forall i :: 0 <= i < |r.effects| ==> !r.effects[i].Navigate?;
      }
    }
    r
  }

  /** The reply to a save or delete: navigate to the list on success, keep the error otherwise. */
  function OnReply(s: Session, outcome: Result<Value, JsError>): (r: Step)
    ensures outcome.Success? ==> r == OnSaveComplete(s)
    ensures outcome.Failure? ==> r == Step(s.(error := Some(outcome.error)), [])
    ensures Shaped(s.form) ==> Shaped(r.session.form)
  {
    Settled(s, outcome, ListPath)
  }

  /** A freshly retrieved product form is pristine, so saving it completes with no call. */
  lemma SaveAfterRetrievalCompletes(s: Session, product: Value, valid: bool)
    ensures var t := OnProductRetrieved(s, product).session;
      SaveProduct(t, valid) == OnSaveComplete(t) && SaveCount(SaveProduct(t, valid).effects) == 0
  {
  }
}

=== FILE: product_tables.dfy ===
/**
 * The validation tables of the product form. The product edit page and the
 * product dialog declare the same rules and the same messages.
 */
module ProductTables {
  import opened Js
  import opened Validation

  const Rules: RuleTable := map[
    "product" := [Required, MinLength(3), MaxLength(100)],
    "price" := [Range(1, 99999)],
    "quantity" := [Range(1, 20)],
    "customerId" := [Range(1, 9999999)],
    "isActive" := []]

  const Messages: MessageTable := map[
    "product" := map[
      "required" := Text("Product first name is required."),
      "minlength" := Text("Product first name must be at least one characters."),
      "maxlength" := Text("Product first name cannot exceed 100 characters.")],
    "price" := map[
      "range" := Bounds("Age of the product", 1, 9999)],
    "quantity" := map[
      "range" := Bounds("Age of the product", 1, 20)],
    "customerId" := map[
      "range" := Bounds("Age of the product", 1, 99999)]]

  /** Every rule of the product form has a message. */
  lemma AllExplained()
    ensures Unexplained(Rules, Messages) == {}
  {
    var u := Unexplained(Rules, Messages);
    forall f | f in Rules
      ensures forall i :: 0 <= i < |Rules[f]| ==> HasMessage(Messages, f, Rules[f][i])
    {
    }
    assert forall f :: f !in u;
  }

  /**
   * The product name must be at least three characters long, yet its minimum
   * length message says "at least one characters" rather than naming the
   * bound the rule checks.
   */
  lemma MinLengthMessageOmitsBound()
    ensures MinLength(3) in Rules["product"]
    ensures Messages["product"]["minlength"] == Text("Product first name must be at least one characters.")
    ensures Messages["product"]["minlength"].text != "Product first name must be at least " + NatDigits(3) + " characters."
  {
    assert NatDigits(3) == "3";
  }

  /**
   * The price message states 9999 where the validator allows 99999, and the
   * customer message states 99999 where it allows 9999999; quantity's agrees.
   */
  lemma RangeMessagesDisagreeWithRules()
    ensures Messages["price"]["range"].hi == 9999 && Rules["price"] == [Range(1, 99999)]
    ensures Messages["customerId"]["range"].hi == 99999 && Rules["customerId"] == [Range(1, 9999999)]
    ensures !RangeMessageAgrees(Rules, Messages, "price")
    ensures !RangeMessageAgrees(Rules, Messages, "customerId")
    ensures RangeMessageAgrees(Rules, Messages, "quantity")
  {
    assert Rules["price"][0].hi != Messages["price"]["range"].hi;
    assert Rules["customerId"][0].hi != Messages["customerId"]["range"].hi;
  }
}

=== FILE: validation.dfy ===
/**
 * The declarative validation tables of the edit screens, kept as data: the
 * rules each form control carries and the messages shown per error code.
 * Evaluating the rules is outside this model.
 */
module Validation {
  import opened Js

  datatype Rule = Required | MinLength(n: nat) | MaxLength(n: nat) | Range(lo: nat, hi: nat)

  /**
   * A message: plain text, or a range message `<subject> must be between
   * <lo> (lowest) and <hi> (highest).` kept with the bounds it states.
   */
  datatype Message = Text(text: string) | Bounds(subject: string, lo: nat, hi: nat)

  /** Field name to rules. */
  type RuleTable = map<string, seq<Rule>>

  /** Field name to error code to message. */
  type MessageTable = map<string, map<string, Message>>

  /** The error code a failing rule reports. */
  function ErrorCode(r: Rule): string {
    match r
    case Required => "required"
    case MinLength(_) => "minlength"
    case MaxLength(_) => "maxlength"
    case Range(_, _) => "range"
  }

  /** Whether the table holds a message for the error code of `rule` on `field`. */
  predicate HasMessage(messages: MessageTable, field: string, rule: Rule) {
    field in messages && ErrorCode(rule) in messages[field]
  }

  /** Fields with a rule whose error would never be displayed for lack of a message. */
  function Unexplained(rules: RuleTable, messages: MessageTable): set<string> {
    set f | f in rules && exists i :: 0 <= i < |rules[f]| && !HasMessage(messages, f, rules[f][i])
  }

  /** The field's range message states exactly the bounds of each of its range rules. */
  predicate RangeMessageAgrees(rules: RuleTable, messages: MessageTable, field: string)
    requires field in rules
  {
    && field in messages && "range" in messages[field]
    && var m := messages[field]["range"];
       m.Bounds? && forall i :: 0 <= i < |rules[field]| && rules[field][i].Range? ==>
         rules[field][i].lo == m.lo && rules[field][i].hi == m.hi
  }
}

=== FILE: wrappers.dfy ===
/** Optional values and results used throughout the model. */
module Wrappers {

  /** An optional value: `None` stands for a missing entry. */
  datatype Option<+T> = None | Some(value: T)

  /** Either a computed value or the error that was raised instead. */
  datatype Result<+R, +E> = Success(value: R) | Failure(error: E)
}
